=== FILE: README.md ===
# Transducer decoding core: greedy and modified beam search

This project models the decoding core of `examples/libriheavy/tools/beam_search.py`
in Dafny and proves properties of the model. The core turns per-frame transducer
scores into token sequences, with one timestamp and one log-prob per emitted token.

The pieces:

- **`Hypothesis` and `HypothesisList`** (`hypothesis.dfy`, `token_key.dfy`).
  - A hypothesis holds:
    - its tokens `ys`, context prefix included;
    - the per-token `scores`;
    - the path log-prob;
    - the per-token `timestamp`.
  - The list is the Python dict from `key` to hypothesis. It is kept as the sequence
    of its values in insertion order, because that order decides ties in
    `get_most_probable` and the flat candidate order of a beam step.
  - It is keyed on `ys`. `TokenKey` proves that the string key
    `"_".join(map(str, ys))` identifies `ys`.
  - Operations: `add`, `remove`, `filter`, `topk` and `get_most_probable`.
- **Sorting** (`sorting.dfy`).
  - A stable descending insertion sort and the top-k selection built on it.
  - Used for `sorted(..., reverse=True)[:k]`, for `torch.topk` and for the length
    sort of `pack_padded_sequence`.
- **Ragged bookkeeping** (`ragged.dfy`).
  - `get_hyps_row_splits`: an exclusive prefix sum.
  - The flat list of all hypotheses.
  - `row_splits_to_row_ids`, modelled by its meaning: the utterance that owns each
    flat position.
- **Packing schedule** (`packing.dfy`).
  - `pack_padded_sequence(..., enforce_sorted=False)` as a pure function of the
    valid lengths.
  - It yields the longest-first order, `batch_sizes` and `unsorted_indices`.
- **`greedy_search_batch`** (`greedy.dfy`).
  - The batched frame loop, one path per utterance.
  - Proved equal, utterance by utterance, to a reference decode of that utterance on
    its own.
- **`modified_beam_search`** (`beam_search.dfy`).
  - Retirement of finished utterances.
  - One batched scoring call per frame over the flattened hypotheses.
  - Top-`beam` candidate selection, expansion, and merging of equal token sequences.
  - The final length-normalised choice and the un-sort.
  - Also proved equal to a per-utterance reference decode.

The network is a parameter, `score(history, utt, t)`. It returns the log-probs of the
whole vocabulary for the last `contextSize` tokens of a path, the original index of
its utterance and the frame. This one function stands for:

- the encoder, decoder and joiner projections;
- `log_softmax`;
- the temperature.

`torch.logaddexp` is a parameter `lse`. Scores are mathematical reals.

Shared types live in `decoding.dfy`:

- the configuration: blank and unknown IDs, context size, vocabulary size;
- the error kinds;
- `DecodingResults`;
- the well-formedness of one emitted path.

Failures are modelled as `Result` and `Option` values (`wrappers.dfy`):

- an empty batch, which the assertions at lines 59 and 341 reject;
- a non-positive valid length. `pack_padded_sequence` (lines 61-66 and 343-348)
  raises on it before the assertions at lines 76 and 357 are reached;
- the `assert key in self` of `remove`;
- the exceptions that `torch.topk` and `max` raise.

The assertion `N == batch_size_list[0]` (lines 77 and 358) is not an error path:
`Packing.BatchSizesShape` proves it always holds.

Behaviour the code fixes or leaves open, as the model follows it:

- **Merged hypotheses can differ in timestamps and scores.** Two candidates can spell
  the same tokens after emitting them at different frames. `add` keeps the first
  one's timestamps and scores (lines 204-211), so the stored entry need not equal
  the second one apart from its log-prob.
- **Length normalisation is fixed.** The final choice always uses
  `length_norm=True` (line 474); no option selects the raw log-prob.
- **Length normalisation counts the context prefix.** `len(hyp.ys)` (line 226)
  includes the `contextSize` prefix.
- **Equal keys.** `torch.sort` (inside packing) and `torch.topk` leave the order of
  equal keys unspecified. The model sorts with a stable sort, so among equal
  candidate totals the lower flat index comes first. That choice decides the
  order in which children are added, which child a merge keeps, and which first
  maximum line 474 returns. The batch decoders are proved independent of the
  order of equal lengths, but not of the order of equal candidate totals.
- **The two decoders start differently.** The greedy path starts as
  `contextSize - 1` entries of -1 followed by blank (line 79). A beam hypothesis
  starts as `contextSize` blanks (line 364).

In one place the model departs from the code on purpose. The beam decoder stores
each new token's own log-prob as its score (`BeamSearch.Expand`). The code stores the
path's cumulative log-prob there (line 462), which "## Findings" records.

Both decoders prove what each reported score is (`Decoding.ScoresAreTokenLogProbs`).
Score `k` of utterance `i` is the log-prob the scorer gave token `k`:
- for utterance `i`;
- at the frame `timestamps[k]`;
- reading the history made of the start context and the tokens before token `k`.

The greedy decoder stores exactly that at line 124. The beam decoder's line 462 does not.

## Model

| member | source | states |
|---|---|---|
| TokenKey.KeyRoundTrip | examples/libriheavy/tools/beam_search.py:172-175 | reading the key `Key(ys)`, that is `"_".join(map(str, ys))`, back gives `ys`, the empty list included |
| TokenKey.KeyInjective | examples/libriheavy/tools/beam_search.py:172-175 | two token lists have the same key exactly when they are equal, so keying on `ys` is keying on `key` |
| TokenKey.IntRoundTrip | examples/libriheavy/tools/beam_search.py:175 | Python's `str` of any integer, negatives included, parses back to that integer |
| Hypotheses.KeysUniquePairs | examples/libriheavy/tools/beam_search.py:179-192 | the dict invariant, stated entry by entry from the front, is equivalent to: any two positions of the list hold different keys |
| Hypotheses.AddSpec | examples/libriheavy/tools/beam_search.py:194-211 | `add` keeps keys unique and stores the old keys plus `h`'s key. A new key is appended, so the size grows by one. An existing key keeps the size and that entry's tokens, scores and timestamps; only its log-prob becomes `lse(old, new)`, and every other entry is untouched |
| Hypotheses.Add | examples/libriheavy/tools/beam_search.py:194-211 | `add` never shrinks the list and grows it by at most one entry |
| Hypotheses.Lookup | examples/libriheavy/tools/beam_search.py:204-206 | `key in self._data` and its entry: a stored hypothesis with that key when there is one, and none exactly when no stored hypothesis has the key |
| Hypotheses.AddLookup | examples/libriheavy/tools/beam_search.py:204-211 | `add` changes only the entry under `h`'s key. A missing key gets `h` itself; a present one keeps its tokens, scores and timestamps and gets log-prob `lse(old, h.log_prob)` |
| Hypotheses.AddAllLookup | examples/libriheavy/tools/beam_search.py:194-211 | after adding a sequence one by one, the entry under every key is exactly what the per-key fold `FoldKey` gives from the entry stored before |
| Hypotheses.AddAllSpec | examples/libriheavy/tools/beam_search.py:194-211 | adding a sequence of hypotheses one by one keeps keys unique and stores the old keys plus the added ones. Each stored entry has the tokens, scores and timestamps of an old or an added hypothesis. The entry under every key is the per-key reference `FoldKey`: the first hypothesis with that key, its log-prob merged with `lse` with each later one in turn |
| Hypotheses.AddAllFresh | examples/libriheavy/tools/beam_search.py:204-211 | when no added key is stored or repeated, adding never merges: the result is the old list followed by the added hypotheses |
| Hypotheses.Remove | examples/libriheavy/tools/beam_search.py:231-245 | `remove` fails exactly when `h`'s key is absent. Otherwise the size drops by one, keys stay unique, and the entries kept are exactly those whose key differs from `h`'s |
| Hypotheses.RemoveInOrder | examples/libriheavy/tools/beam_search.py:243-245 | when `h`'s key is present, `remove` cuts out exactly the one entry at some position `i` with that key and keeps every other entry in insertion order (the dict's `del`) |
| Hypotheses.RemoveKeys | examples/libriheavy/tools/beam_search.py:243-245 | after `remove` the stored keys are the old keys less `h`'s key |
| Hypotheses.Filter | examples/libriheavy/tools/beam_search.py:247-261 | `filter` returns a key-unique list holding exactly the entries whose log-prob exceeds the threshold |
| Hypotheses.FilterInOrder | examples/libriheavy/tools/beam_search.py:256-261 | `filter` keeps insertion order: the result is the subsequence of the list whose log-probs exceed the threshold, `[h for h in l if h.log_prob > threshold]` |
| Hypotheses.MostProbableIndex | examples/libriheavy/tools/beam_search.py:224-229 | Python's `max` with a key: an index whose ranking is largest, and every earlier index ranks strictly lower (the first maximum) |
| Hypotheses.GetMostProbable | examples/libriheavy/tools/beam_search.py:213-229 | on an empty list it fails (`max` of nothing); otherwise it returns a stored hypothesis whose ranking, raw or length-normalised, is largest |
| Hypotheses.TopK | examples/libriheavy/tools/beam_search.py:263-270 | `topk(k)` keeps `min(k, len)` entries for `k >= 0`, and `len + k` entries (at least 0) for negative `k`, as the slice `[:k]` does |
| Hypotheses.TopKBest | examples/libriheavy/tools/beam_search.py:263-270 | the kept entries come from the list, keep unique keys and are in non-increasing log-prob order; every kept log-prob is at least every dropped one |
| Sorting.InsertSpec | examples/libriheavy/tools/beam_search.py:267 | inserting adds exactly the one element, and inserting into a non-increasing sequence keeps it non-increasing |
| Sorting.SortDescSpec | examples/libriheavy/tools/beam_search.py:267 | the sort is a permutation of its input in non-increasing key order |
| Sorting.TopByKeyBest | examples/libriheavy/tools/beam_search.py:267 | the first `k` of the sort are a sub-multiset of the input, in non-increasing order, and none is beaten by an element left out |
| Ragged.RowSplits | examples/libriheavy/tools/beam_search.py:288-312 | `row_splits` has one more entry than there are utterances and starts at 0. `row_splits[i+1] - row_splits[i]` is the number of hypotheses of utterance `i`. The last entry is the total number of hypotheses |
| Ragged.RowSplitsValid | examples/libriheavy/tools/beam_search.py:304-311 | the row splits form a valid offsets table: starting at 0 and never decreasing |
| Ragged.SplitsMonotone | examples/libriheavy/tools/beam_search.py:304-311 | in a valid offsets table an earlier entry is never larger than a later one |
| Ragged.RowSplitsBounded | examples/libriheavy/tools/beam_search.py:387-393 | every utterance's hypotheses fit inside the flat list that concatenates them |
| Ragged.FlattenIndex | examples/libriheavy/tools/beam_search.py:389-400 | in the flat order `for hyps in A for hyp in hyps`, hypothesis `k` of utterance `i` sits at position `row_splits[i] + k` |
| Ragged.RowSplitsToRowIds | examples/libriheavy/tools/beam_search.py:411 | `row_splits_to_row_ids` gives one entry per flat position, naming a row whose range contains that position |
| Ragged.OwnerUnique | examples/libriheavy/tools/beam_search.py:411 | a flat position lies in exactly one row's range |
| Ragged.FlatOwner | examples/libriheavy/tools/beam_search.py:408-412 | the row id of every flat position of utterance `i` is `i`, so `index_select` pairs each hypothesis with its own utterance's frame |
| Ragged.Layout | examples/libriheavy/tools/beam_search.py:387-412 | row splits, the flat list and the row ids agree: each utterance's hypotheses sit in its own range, and every position of that range is owned by that utterance |
| Packing.CheckLengths | examples/libriheavy/tools/beam_search.py:340-358 | the input checks fail exactly when the batch is empty or some valid length is not positive; an empty batch is reported as such |
| Packing.SortOrder | examples/libriheavy/tools/beam_search.py:343-348 | `sorted_indices` is a permutation of the utterance indices that lists the valid lengths longest first |
| Packing.ActiveCount | examples/libriheavy/tools/beam_search.py:355 | for lengths sorted longest first, the count is exactly the number of utterances longer than `t` |
| Packing.BatchSizes | examples/libriheavy/tools/beam_search.py:355 | `batch_sizes[t]` is the number of sorted positions whose length exceeds `t`, and a position runs at frame `t` exactly when it is below `batch_sizes[t]` |
| Packing.Invert | examples/libriheavy/tools/beam_search.py:141 | `unsorted_indices` is the inverse of the sort permutation, on both sides |
| Packing.Pack | examples/libriheavy/tools/beam_search.py:343-358 | the packing gives a longest-first permutation, one batch size per frame of the longest utterance, batch sizes that count exactly the running positions, and an inverse permutation |
| Packing.SortedIsPermutation | examples/libriheavy/tools/beam_search.py:343-348 | a sequence with the multiset of `0 .. n-1` is a permutation that reaches every index |
| Packing.BatchSizesShape | examples/libriheavy/tools/beam_search.py:355-358 | the first batch size is the whole batch (the `N == batch_size_list[0]` assertion always holds), batch sizes never increase, and every frame runs at least one utterance |
| Packing.ScheduleFull | examples/libriheavy/tools/beam_search.py:357-358 | a schedule as long as its longest utterance starts with every utterance and never runs empty |
| Packing.ScheduleShrinks | examples/libriheavy/tools/beam_search.py:375-384 | utterances only retire: batch sizes are non-increasing |
| Packing.PackSchedule | examples/libriheavy/tools/beam_search.py:343-358 | the packing meets everything the frame loops rely on: it lists every utterance, each position runs at frame `t` exactly while its length exceeds `t`, and no utterance outlives the schedule |
| Packing.Unsort | examples/libriheavy/tools/beam_search.py:479-486 | entry `k` of the sorted results lands in the caller slot `sorted_indices[k]` |
| Decoding.History | examples/libriheavy/tools/beam_search.py:396-398 | `ys[-c:]` with `1 <= c <= len(ys)` is exactly `c` tokens long, and the path is what precedes them followed by them: the last `c` tokens. With `c == 0` (`ys[-0:]`, that is `ys[0:]`) or a path shorter than `c`, it is the whole path |
| Decoding.Collect | examples/libriheavy/tools/beam_search.py:146-151 | `DecodingResults` holds one token list, one timestamp list and one score list per utterance, and entry `i` of each is utterance `i`'s output |
| Decoding.AppendKeepsScores | examples/libriheavy/tools/beam_search.py:120-124 | emitting a token at frame `t` with the log-prob the scorer gave it after the path so far keeps every score the log-prob of its own token |
| Decoding.ExtendScores | examples/libriheavy/tools/beam_search.py:459-462 | the same on a whole path whose first `contextSize` entries are the start context: appending a token leaves the context alone |
| Greedy.ArgMax | examples/libriheavy/tools/beam_search.py:118 | `argmax` is an index of a largest entry, and every earlier entry is strictly smaller |
| Greedy.GreedyStart | examples/libriheavy/tools/beam_search.py:79 | the start path has `contextSize` tokens, `contextSize - 1` padding entries of -1 and then blank, and has emitted nothing |
| Greedy.GreedyStep | examples/libriheavy/tools/beam_search.py:118-125 | one frame adds at most one token |
| Greedy.GreedyStepSpec | examples/libriheavy/tools/beam_search.py:118-125 | a frame either leaves the path alone, when the first arg-max (`argmax` returns the first largest entry) is blank or unknown, or appends exactly that first arg-max, the frame `t` and that token's log-prob. Under ties no later largest token is ever emitted |
| Greedy.StepKeepsInvariant | examples/libriheavy/tools/beam_search.py:119-125 | a frame keeps the emitted path well formed one frame further on, and never touches the context prefix |
| Greedy.GreedyUpTo | examples/libriheavy/tools/beam_search.py:79-125 | an utterance decoded alone over `frames` frames has a well-formed path, keeps its initial context prefix, and emits at most one token per frame |
| Greedy.GreedyFrame | examples/libriheavy/tools/beam_search.py:108-125 | the batched frame takes each running position one step, exactly as scoring it alone would, and leaves retired positions alone |
| Greedy.PathAdvance | examples/libriheavy/tools/beam_search.py:100-125 | across frame `t` an utterance takes its own step while its length exceeds `t` and keeps its path once it has retired |
| Greedy.PathRuns | examples/libriheavy/tools/beam_search.py:100-125 | one more step of the reference decode is the decode over one more frame |
| Greedy.FrameAdvance | examples/libriheavy/tools/beam_search.py:100-125 | after frame `t` every sorted position holds its utterance decoded alone over the frames it has seen |
| Greedy.GreedyFrames | examples/libriheavy/tools/beam_search.py:99-136 | after the frame loop, sorted position `k` holds the complete single-utterance path of utterance `sorted_indices[k]` |
| Greedy.Emitted | examples/libriheavy/tools/beam_search.py:137 | `h[context_size:]` drops exactly the context prefix: the path is its prefix followed by the emitted tokens |
| Greedy.GreedyOutput | examples/libriheavy/tools/beam_search.py:137 | the output of one utterance, context prefix stripped, is well formed, and score `k` is the log-prob the scorer gave token `k` at its frame after the start path and the tokens before it |
| Greedy.GreedyStepScores | examples/libriheavy/tools/beam_search.py:113-124 | a frame appends, as the score of the token it appends, that token's entry of the scorer row for the path's own history |
| Greedy.GreedyUpToScores | examples/libriheavy/tools/beam_search.py:99-124 | after any number of frames, every score on a path is the log-prob of its own token |
| Greedy.GreedyDecodeSorted | examples/libriheavy/tools/beam_search.py:61-145 | packing, the frame loop, prefix stripping and un-sort together give every utterance its own single-utterance output in caller order |
| Greedy.UnsortedOutputs | examples/libriheavy/tools/beam_search.py:141-145 | after un-sorting, caller slot `i` holds utterance `i`'s own output |
| Greedy.GreedySearchBatch | examples/libriheavy/tools/beam_search.py:40-151 | the decoder fails exactly on an empty batch or a non-positive length. Otherwise output `i` is utterance `i` decoded alone, whatever the batch and the sort, with equal-length tokens, timestamps and scores, no blank or unknown token, and timestamps strictly increasing below its valid length. Score `k` of output `i` is the log-prob the scorer gave token `k` for utterance `i` at frame `timestamps[i][k]`, after the start path and the tokens before it |
| BeamSearch.CheckBeam | examples/libriheavy/tools/beam_search.py:437-439 | the beam check fails exactly when `beam` is below 1 or above the vocabulary size (the first frame's `topk` has one hypothesis per utterance) |
| BeamSearch.InitialHypothesis | examples/libriheavy/tools/beam_search.py:360-369 | every utterance starts from one hypothesis of `contextSize` blanks, at log-prob 0, with nothing emitted |
| BeamSearch.InitialInvariant | examples/libriheavy/tools/beam_search.py:360-369 | the starting list, `contextSize` blanks at log-prob 0, satisfies the stored-hypothesis invariant before any frame |
| BeamSearch.FlatCandidate | examples/libriheavy/tools/beam_search.py:447-448 | `index // vocab_size` names a hypothesis of the utterance and `index % vocab_size` a vocabulary entry |
| BeamSearch.CandidateAt | examples/libriheavy/tools/beam_search.py:428-448 | flat entry `c` is hypothesis `c // V` extended by token `c % V`, and its value is the parent's log-prob plus that token's log-prob (`log_probs.add_(ys_log_probs)`) |
| BeamSearch.Candidates | examples/libriheavy/tools/beam_search.py:426-434 | the flat row of an utterance has `num_hyps * V` entries, entry `c` being the candidate at flat index `c` |
| BeamSearch.CandidateOf | examples/libriheavy/tools/beam_search.py:426-448 | every extension of every hypothesis is in the row: hypothesis `h` extended by token `tok` sits at index `h * V + tok`, with parent `A[h]`, token `tok` and total `A[h].log_prob + log_probs[h][tok]` |
| BeamSearch.FlatIndex | examples/libriheavy/tools/beam_search.py:447-448 | `//` and `%` by `V` recover the hypothesis and the token from `h * V + tok` |
| BeamSearch.SelectCandidates | examples/libriheavy/tools/beam_search.py:437-439 | `topk(beam)` over an utterance's flat row returns exactly `beam` candidates |
| BeamSearch.SelectCandidatesBest | examples/libriheavy/tools/beam_search.py:437-453 | the selected candidates are distinct entries of the row, each extending a hypothesis of the utterance, and none has a smaller total than a candidate left out |
| BeamSearch.TopkCoversRow | examples/libriheavy/tools/beam_search.py:426-448 | for every hypothesis and every token, either that extension is selected or every selected candidate totals at least as much |
| BeamSearch.RowParents | examples/libriheavy/tools/beam_search.py:451-453 | every candidate of the row extends one of the utterance's hypotheses |
| BeamSearch.Expand | examples/libriheavy/tools/beam_search.py:451-470 | a child has the candidate's total log-prob. For blank or unknown it keeps the parent's tokens, scores and timestamps; otherwise it appends the token, frame `t` and the token's own log-prob |
| BeamSearch.ChildKeepsInvariant | examples/libriheavy/tools/beam_search.py:455-463 | a child of a well-formed parent is well formed one frame further on: equal-length tokens, timestamps and scores, no sentinel, timestamps increasing and below `t + 1` |
| BeamSearch.ExpandAsWritten | examples/libriheavy/tools/beam_search.py:426-462 | as written, the score appended for a new token is the candidate's cumulative log-prob |
| BeamSearch.AsWrittenScoreIsCumulative | examples/libriheavy/tools/beam_search.py:426-462 | whenever the parent's log-prob is not 0, the as-written scores differ from the per-token log-probs the field is documented to hold |
| BeamSearch.AsWrittenCounterexample | examples/libriheavy/tools/beam_search.py:426-462 | a concrete parent at -1 emitting a token at -0.5 stores -1.5 instead of -0.5 |
| BeamSearch.MergeChildren | examples/libriheavy/tools/beam_search.py:390-471 | merging the selected children into a fresh list leaves at least one and at most one hypothesis per child |
| BeamSearch.MergeChildrenSpec | examples/libriheavy/tools/beam_search.py:390-471 | the merged list has unique keys and exactly the token sequences of the children, and each entry continues the parent of some selected candidate. The entry under each token sequence keeps the first such child's tokens, scores and timestamps, and its log-prob is the `lse` fold of all such children's totals in selection order |
| BeamSearch.UttStepFromScores | examples/libriheavy/tools/beam_search.py:436-471 | a frame that selects, expands and merges leaves an utterance between 1 and `beam` hypotheses |
| BeamSearch.UttStepFromScoresKeys | examples/libriheavy/tools/beam_search.py:436-471 | after a frame an utterance's list has unique keys: exactly the token sequences the selected candidates expand to |
| BeamSearch.UttStepDescends | examples/libriheavy/tools/beam_search.py:436-471 | every hypothesis kept by a frame continues one the utterance held before it |
| BeamSearch.StepKeepsInvariant | examples/libriheavy/tools/beam_search.py:455-471 | when every new hypothesis continues an old one, well-formedness carries over one frame further on |
| BeamSearch.UttStep | examples/libriheavy/tools/beam_search.py:436-471 | after a frame an active utterance holds between 1 and `beam` hypotheses |
| BeamSearch.UttStepKeepsInvariant | examples/libriheavy/tools/beam_search.py:436-471 | a frame keeps every stored hypothesis well formed, one frame further on |
| BeamSearch.BeamUpTo | examples/libriheavy/tools/beam_search.py:360-471 | an utterance decoded alone holds between 1 and `beam` hypotheses after any number of frames |
| BeamSearch.BeamUpToInvariant | examples/libriheavy/tools/beam_search.py:360-471 | every hypothesis of an utterance decoded alone over `frames` frames is well formed for those frames |
| BeamSearch.BeamUpToKeysUnique | examples/libriheavy/tools/beam_search.py:178-192 | every list an utterance holds, after any number of frames, has unique keys |
| BeamSearch.FrameKeepsInvariant | examples/libriheavy/tools/beam_search.py:436-471 | well-formedness after `frames - 1` frames carries over to `frames` frames |
| BeamSearch.BatchStep | examples/libriheavy/tools/beam_search.py:387-471 | the batched frame (flatten, one scorer call through the row ids, slice per utterance) gives each utterance exactly its own single-utterance frame |
| BeamSearch.BatchAgrees | examples/libriheavy/tools/beam_search.py:408-443 | each utterance's slice of the flat scores equals the scores of its own hypotheses against its own frame |
| BeamSearch.FlatScores | examples/libriheavy/tools/beam_search.py:392-424 | the one scorer call gives each flat hypothesis a full vocabulary row, scored from its own last `contextSize` tokens against the frame of the utterance owning it |
| BeamSearch.BestHypothesis | examples/libriheavy/tools/beam_search.py:474 | the chosen hypothesis is stored in the list, and its log-prob per token is the largest |
| BeamSearch.OutputOf | examples/libriheavy/tools/beam_search.py:476-478 | the reported tokens are the hypothesis's tokens with exactly the context prefix dropped, with its timestamps and scores |
| BeamSearch.BeamOutput | examples/libriheavy/tools/beam_search.py:474-478 | the reported best hypothesis of an utterance decoded alone is well formed for its frames, and its score `k` is the log-prob the scorer gave token `k` at its frame after the `contextSize` blanks and the tokens before it |
| BeamSearch.ExpandScores | examples/libriheavy/tools/beam_search.py:455-462 | expanding a candidate whose token log-prob comes from the scorer row of its parent's history keeps every stored score the log-prob of its own token |
| BeamSearch.CandidateRow | examples/libriheavy/tools/beam_search.py:426-450 | a candidate of the flat row extends some hypothesis `A[h]` with a token below the vocabulary size and carries entry `token` of row `h` as its token log-prob |
| BeamSearch.RowScores | examples/libriheavy/tools/beam_search.py:394-450 | a candidate's token log-prob is its token's entry in the scorer row computed from its own parent's last `contextSize` tokens at frame `t` |
| BeamSearch.UttStepKeepsScores | examples/libriheavy/tools/beam_search.py:426-470 | after a frame, every merged hypothesis still holds as score `k` the log-prob of its token `k`, since it carries the tokens, timestamps and scores of one expanded child |
| BeamSearch.BeamUpToScores | examples/libriheavy/tools/beam_search.py:360-470 | every hypothesis stored after any number of frames holds as score `k` the log-prob of its token `k` |
| BeamSearch.ScheduleStep | examples/libriheavy/tools/beam_search.py:375-384 | before frame `t` the running count drops to `batch_sizes[t]`, and the positions that retire have exactly `t` frames |
| BeamSearch.ScheduleEnd | examples/libriheavy/tools/beam_search.py:375-384 | after the last frame every still-running position has used all its frames |
| BeamSearch.RetiringAreFinal | examples/libriheavy/tools/beam_search.py:383 | the lists retired before frame `t` are already the final lists of their utterances |
| BeamSearch.Retire | examples/libriheavy/tools/beam_search.py:383 | `finalized_B = B[batch_size:] + finalized_B` keeps the finished lists in sorted order |
| BeamSearch.FinishFrames | examples/libriheavy/tools/beam_search.py:473 | `B + finalized_B` is exactly the `N` final lists in sorted order |
| BeamSearch.RunningPrefix | examples/libriheavy/tools/beam_search.py:384 | `B[:batch_size]` still holds the running positions' lists, none of them empty |
| BeamSearch.FrameAgrees | examples/libriheavy/tools/beam_search.py:384-471 | the batched frame takes every running list one frame further |
| BeamSearch.BeamFrame | examples/libriheavy/tools/beam_search.py:384-471 | one batched frame moves the running sorted positions from `t` to `t + 1` frames |
| BeamSearch.BeamFrames | examples/libriheavy/tools/beam_search.py:373-473 | after the frame loop, with retirement into `finalized_B` and `B + finalized_B` at the end, position `k` holds utterance `sorted_indices[k]` decoded alone over its whole valid length |
| BeamSearch.BestOutputs | examples/libriheavy/tools/beam_search.py:474-478 | `get_most_probable(length_norm=True)` is applied to each list the frame loop built. When those are the single-utterance decodes, entry `k` is utterance `sorted_indices[k]`'s own output |
| BeamSearch.UnsortedBeamOutputs | examples/libriheavy/tools/beam_search.py:479-486 | after un-sorting, caller slot `i` holds utterance `i`'s own output |
| BeamSearch.DecodeSorted | examples/libriheavy/tools/beam_search.py:343-486 | packing, the frame loop, best-hypothesis choice and un-sort together give every utterance its own single-utterance output in caller order |
| BeamSearch.ModifiedBeamSearch | examples/libriheavy/tools/beam_search.py:315-492 | the decoder fails exactly on an empty batch, a non-positive length or a beam outside 1 .. vocabulary size, and reports the length errors first. Otherwise output `i` is utterance `i` decoded alone, whatever the batch and the sort, with equal-length tokens, timestamps and scores, no blank or unknown token, and strictly increasing timestamps below its valid length. Score `k` of output `i` is the log-prob the scorer gave token `k` for utterance `i` at frame `timestamps[i][k]`, after the `contextSize` blanks and the tokens before it |

## Left out

- The network is not modelled: `model.decoder`, `model.joiner`, `encoder_proj`, `decoder_proj`, `log_softmax` and the temperature division. They are folded into the scorer parameter, which must return one log-prob per vocabulary entry.
- Floating point is not modelled. Scores are reals, `torch.logaddexp` is an uninterpreted parameter, and the length-normalising division is exact.
- Packed tensor data is not modelled: `packed_encoder_out.data`, the `offset` slicing of frames and device transfers. Each utterance's frame is reached through the scorer's `utt` and `t` arguments instead.
- The greedy decoder's recomputation of `decoder_out` only after an emission (lines 126-135) is a caching detail. The model rescores from the current history every frame, which gives the same scores.
- The tensor-shape assertions (lines 58, 117 and 340) are not modelled. They concern the encoder output's dimensions, which the model does not carry.
- `warnings.catch_warnings`, `HypothesisList.__str__`, `__iter__`, `__len__` and the `data` property are left out: they are conveniences with nothing to state.
- `examples/libriheavy/tools/asr_datamodule.py` is not part of this model: it is data loading and command-line configuration.
- `row_splits_to_row_ids` comes from a `utils` module that is not part of this model. It is modelled by its meaning: the row owning each flat position.
- Ragged.RowSplits: uses unbounded naturals. `torch.cumsum(..., dtype=torch.int32)` would wrap only past 2^31 hypotheses.
- Sorting.TopByKeyBest: does not state how equal keys are ordered. The insertion sort is stable, like Python's `sorted`, which is what makes `Hypotheses.TopK` match `topk`.
- Hypotheses.Filter, Hypotheses.TopK: return values, not shared objects. In the source the new list holds the same `Hypothesis` objects as the original ("shallow copy", lines 258-260 and 265-269), and `add` updates `log_prob` in place (lines 207-209). So an `add` on the copy also changes the original. The decoders never add to such a copy, and the model does not carry this aliasing.
- Hypotheses.TopKBest: does not state that entries with equal log-probs keep their insertion order, which Python's stable `sorted` guarantees.
- BeamSearch.SelectCandidatesBest: does not state which of several equal-scoring candidates `torch.topk` keeps.
- Packing.SortOrder: does not state the order of utterances of equal length, which `torch.sort` leaves unspecified. The batch decoders are proved independent of that order.
- Greedy.GreedySearchBatch: requires `contextSize >= 1`. With a context size of 0, line 79 starts the path as `[blank]`, one token longer than the context, and `h[0:]` at line 137 would report that blank as an emitted token. It also requires a non-empty vocabulary, on which `argmax` is defined.
- BeamSearch.ModifiedBeamSearch: requires `contextSize >= 1`. With a context size of 0 the start hypothesis is empty, and the length normalisation at line 226 would divide by `len(ys) == 0` for every path that emits nothing.
- BeamSearch.ModifiedBeamSearch: equal candidate totals are broken by flat index, the lower first, where `torch.topk` promises no order. Its output equals `BeamOutput`, which is built on that choice.
- BeamSearch.ModifiedBeamSearch: stores each token's own log-prob in `scores`, not the cumulative value the source stores at line 462 (see "## Findings"). Its ensures states that meaning of the scores, which the code as written does not meet.

## Findings

| source | as written | input that shows it | evidently intended | confidence | as-written member | corrected member |
|---|---|---|---|---|---|---|
| examples/libriheavy/tools/beam_search.py:426-462 | `log_probs_t = log_probs.reshape(-1)` is a view of `log_probs`, which `log_probs.add_(ys_log_probs)` then updates in place. So `current_log_probs[topk_indexes[k]]` at line 462 reads the cumulative path log-prob | a parent at log-prob -1.0 emits a token whose own log-prob is -0.5: the stored score is -1.5 | the token's own log-prob, -0.5, which is what the `scores` field documents (line 160) and what `greedy_search_batch` stores (line 124) | high; not executed | BeamSearch.ExpandAsWritten (with BeamSearch.AsWrittenScoreIsCumulative and BeamSearch.AsWrittenCounterexample) | BeamSearch.Expand |

=== FILE: beam_search.dfy ===
/** `modified_beam_search`: per frame, every running utterance expands each of
    its hypotheses by every vocabulary entry, keeps the `beam` best candidates,
    and merges candidates that spell the same tokens.  Scores are log-probs;
    `lse` stands for `torch.logaddexp`. */
module BeamSearch {
  import opened Wrappers
  import opened Sorting
  import opened Decoding
  import opened Hypotheses
  import opened Ragged
  import opened Packing

  /** Entry `index` of an utterance's flattened `(num_hyps * vocab_size)` score
      row: hypothesis `index / vocab_size` extended by token `index % vocab_size`. */
  datatype Candidate = Candidate(index: nat, parent: Hypothesis, token: int, tokenLp: real, total: real)

  function TotalOf(c: Candidate): real {
    c.total
  }

  /** `torch.topk` fails on fewer candidates than `beam`, and a beam below one
      leaves an utterance without hypotheses, which fails later. */
  function CheckBeam(beam: int, cfg: Config): (r: Option<DecodeError>)
    ensures r.None? <==> 1 <= beam <= cfg.vocabSize
    ensures r.Some? ==> r.value == BeamOutOfRange
  {
    if 1 <= beam <= cfg.vocabSize then None else Some(BeamOutOfRange)
  }

  /** Every utterance starts from `contextSize` blanks at log-prob 0. */
  function InitialHypothesis(cfg: Config): (h: Hypothesis)
    ensures |h.ys| == cfg.contextSize && h.logProb == 0.0
    ensures h.scores == [] && h.timestamp == []
    ensures forall k :: 0 <= k < |h.ys| ==> h.ys[k] == cfg.blankId
  {
    Hypothesis(seq(cfg.contextSize, _ => cfg.blankId), [], 0.0, [])
  }

  lemma InitialInvariant(cfg: Config)
    ensures ListInvariant([InitialHypothesis(cfg)], cfg, 0)
  {
    var h := InitialHypothesis(cfg);
    assert h.ys[cfg.contextSize..] == [];
  }

  /** What every stored hypothesis satisfies after `frames` frames. */
  ghost predicate HypInvariant(h: Hypothesis, cfg: Config, frames: nat) {
    |h.ys| >= cfg.contextSize &&
    WellFormedOutput(h.ys[cfg.contextSize..], h.timestamp, h.scores, cfg, frames)
  }

  ghost predicate ListInvariant(l: HypothesisList, cfg: Config, frames: nat) {
    forall i :: 0 <= i < |l| ==> HypInvariant(l[i], cfg, frames)
  }

  /** `x` continues `p` through frame `t`: unchanged tokens, or one more
      non-sentinel token emitted at `t` with one more score. */
  ghost predicate ChildOf(x: Hypothesis, p: Hypothesis, t: nat, cfg: Config) {
    || (x.ys == p.ys && x.timestamp == p.timestamp && x.scores == p.scores)
    || (&& |x.ys| == |p.ys| + 1 && x.ys[..|p.ys|] == p.ys
        && !IsSentinel(x.ys[|p.ys|], cfg)
        && x.timestamp == p.timestamp + [t]
        && |x.scores| == |p.scores| + 1 && x.scores[..|p.scores|] == p.scores)
  }

  /** Every hypothesis of `r` continues some hypothesis of `A` through frame `t`. */
  ghost predicate Descends(r: HypothesisList, A: HypothesisList, t: nat, cfg: Config) {
    forall x :: x in r ==> exists p :: p in A && ChildOf(x, p, t, cfg)
  }

  lemma ChildKeepsInvariant(x: Hypothesis, p: Hypothesis, t: nat, cfg: Config)
    requires HypInvariant(p, cfg, t) && ChildOf(x, p, t, cfg)
    ensures HypInvariant(x, cfg, t + 1)
  {
    var c := cfg.contextSize;
    if x.ys != p.ys {
      assert x.ys == p.ys + [x.ys[|p.ys|]];
      assert x.ys[c..] == p.ys[c..] + [x.ys[|p.ys|]];
      assert x.scores == p.scores + [x.scores[|p.scores|]];
    }
  }

  lemma ShapeChild(x: Hypothesis, y: Hypothesis, p: Hypothesis, t: nat, cfg: Config)
    requires ShapeOf(x) == ShapeOf(y) && ChildOf(y, p, t, cfg)
    ensures ChildOf(x, p, t, cfg)
  {
  }

  /** Candidate `c` of the flat row splits into hypothesis and token. */
  lemma FlatCandidate(c: nat, v: nat, n: nat)
    requires v > 0 && c < n * v
    ensures c / v < n && c % v < v
  {
    var q := c / v;
    assert q * v <= c;
    if q >= n {
      MulMonotone(n, q, v);
    }
  }

  lemma MulMonotone(a: nat, b: nat, v: nat)
    requires a <= b
    ensures a * v <= b * v
  {
  }

  /** Entry `c` of the flat row: parent log-prob plus token log-prob. */
  function CandidateAt(A: HypothesisList, lps: seq<seq<real>>, v: nat, c: nat): (r: Candidate)
    requires v > 0 && |lps| == |A| && c < |A| * v
    requires forall h :: 0 <= h < |lps| ==> |lps[h]| == v
    ensures r.index == c && c / v < |A| && r.token == c % v && 0 <= r.token < v
    ensures r.parent == A[c / v] && r.tokenLp == lps[c / v][r.token]
    ensures r.total == r.parent.logProb + r.tokenLp
  {
    FlatCandidate(c, v, |A|);
    var h := c / v;
    var token := c % v;
    Candidate(c, A[h], token, lps[h][token], A[h].logProb + lps[h][token])
  }

  /** The whole flat row of one utterance (`log_probs.add_(ys_log_probs)`). */
  function Candidates(A: HypothesisList, lps: seq<seq<real>>, v: nat): (r: seq<Candidate>)
    requires v > 0 && |lps| == |A|
    requires forall h :: 0 <= h < |lps| ==> |lps[h]| == v
    ensures |r| == |A| * v
    ensures forall k :: 0 <= k < |r| ==> r[k] == CandidateAt(A, lps, v, k)
  {
    seq(|A| * v, c requires 0 <= c < |A| * v => CandidateAt(A, lps, v, c))
  }

  /** Hypothesis `h` extended by token `tok` sits at flat index `h * V + tok`
      of the row: every extension of every hypothesis is a candidate. */
  lemma CandidateOf(A: HypothesisList, lps: seq<seq<real>>, v: nat, h: nat, tok: nat)
    requires v > 0 && |lps| == |A|
    requires forall i :: 0 <= i < |lps| ==> |lps[i]| == v
    requires h < |A| && tok < v
    ensures h * v + tok < |Candidates(A, lps, v)|
    ensures var c := Candidates(A, lps, v)[h * v + tok];
      c.parent == A[h] && c.token == tok && c.total == A[h].logProb + lps[h][tok]
  {
    MulMonotone(h + 1, |A|, v);
    FlatIndex(h, tok, v);
  }

  /** `//` and `%` by `v` recover the hypothesis and the token of `h * v + tok`. */
  lemma FlatIndex(h: nat, tok: nat, v: nat)
    requires tok < v
    ensures (h * v + tok) / v == h && (h * v + tok) % v == tok
  {
    var c := h * v + tok;
    var q, m := c / v, c % v;
    assert v * q + m == v * h + tok;
    if q > h {
      MulMonotone(h + 1, q, v);
      assert false;
    } else if q < h {
      MulMonotone(q + 1, h, v);
      assert false;
    }
  }

  /** `topk(beam)` over the flat row of one utterance. */
  function SelectCandidates(A: HypothesisList, lps: seq<seq<real>>, v: nat, beam: nat): (sel: seq<Candidate>)
    requires v > 0 && 1 <= beam <= v && |A| >= 1 && |lps| == |A|
    requires forall h :: 0 <= h < |lps| ==> |lps[h]| == v
    ensures |sel| == beam
  {
    var cands := Candidates(A, lps, v);
    assert |cands| >= beam by {
      MulMonotone(1, |A|, v);
    }
    TopByKey(cands, beam, TotalOf)
  }

  /** The selection keeps `beam` distinct candidates of the row, and none of
      them is beaten by a candidate left out.  Ties are resolved by row order
      here; the statement does not depend on it. */
  lemma SelectCandidatesBest(A: HypothesisList, lps: seq<seq<real>>, v: nat, beam: nat)
    requires v > 0 && 1 <= beam <= v && |A| >= 1 && |lps| == |A|
    requires forall h :: 0 <= h < |lps| ==> |lps[h]| == v
    ensures var sel := SelectCandidates(A, lps, v, beam);
      && Distinct(sel)
      && (forall c :: c in sel ==> c in Candidates(A, lps, v))
      && (forall k :: 0 <= k < |sel| ==> sel[k].parent in A)
      && (forall c, d :: c in sel && d in Candidates(A, lps, v) && d !in sel ==> c.total >= d.total)
  {
    var cands := Candidates(A, lps, v);
    var sel := SelectCandidates(A, lps, v, beam);
    MulMonotone(1, |A|, v);
    TopByKeyBest(cands, beam, TotalOf);
    TopFacts(cands, sel, beam);
    RowParents(A, lps, v);
    forall k | 0 <= k < |sel| ensures sel[k].parent in A {
      assert sel[k] in sel;
    }
  }

  /** No extension of a hypothesis of the utterance is lost unfairly: either
      hypothesis `h` extended by token `tok` is selected, or every selected
      candidate totals at least its `A[h].logProb + lps[h][tok]`. */
  lemma TopkCoversRow(A: HypothesisList, lps: seq<seq<real>>, v: nat, beam: nat, h: nat, tok: nat)
    requires v > 0 && 1 <= beam <= v && |A| >= 1 && |lps| == |A|
    requires forall i :: 0 <= i < |lps| ==> |lps[i]| == v
    requires h < |A| && tok < v
    ensures h * v + tok < |Candidates(A, lps, v)|
    ensures var sel := SelectCandidates(A, lps, v, beam);
      || Candidates(A, lps, v)[h * v + tok] in sel
      || forall c :: c in sel ==> c.total >= A[h].logProb + lps[h][tok]
  {
    CandidateOf(A, lps, v, h, tok);
    SelectCandidatesBest(A, lps, v, beam);
    var d := Candidates(A, lps, v)[h * v + tok];
    assert d in Candidates(A, lps, v);
  }

  /** Every candidate of the row extends one of the hypotheses `A`. */
  lemma RowParents(A: HypothesisList, lps: seq<seq<real>>, v: nat)
    requires v > 0 && |lps| == |A|
    requires forall h :: 0 <= h < |lps| ==> |lps[h]| == v
    ensures forall c :: c in Candidates(A, lps, v) ==> c.parent in A
  {
    var cands := Candidates(A, lps, v);
    forall k | 0 <= k < |cands| ensures cands[k].parent in A {
      assert A[k / v] in A;
    }
  }

  lemma TopFacts(cands: seq<Candidate>, sel: seq<Candidate>, beam: nat)
    requires forall k :: 0 <= k < |cands| ==> cands[k].index == k
    requires |sel| == beam && multiset(sel) <= multiset(cands)
    requires forall x, y :: x in sel && y in multiset(cands) - multiset(sel) ==> x.total >= y.total
    ensures Distinct(sel)
    ensures forall c :: c in sel ==> c in cands
    ensures forall c, d :: c in sel && d in cands && d !in sel ==> c.total >= d.total
  {
    assert Distinct(cands) by {
      forall i, j | 0 <= i < j < |cands| ensures cands[i] != cands[j] {
        assert cands[i].index == i && cands[j].index == j;
      }
    }
    SubMultisetDistinct(sel, cands);
    forall c | c in sel ensures c in cands {
      assert c in multiset(sel);
    }
    forall c, d | c in sel && d in cands && d !in sel ensures c.total >= d.total {
      assert d in multiset(cands) - multiset(sel);
    }
  }

  /** The hypothesis a selected candidate becomes: the parent's path with the
      candidate's total log-prob, extended by the token, frame `t` and the
      token's own log-prob unless the token is blank or unknown. */
  function Expand(c: Candidate, t: nat, cfg: Config): (h: Hypothesis)
    ensures ChildOf(h, c.parent, t, cfg)
    ensures h.logProb == c.total
    ensures IsSentinel(c.token, cfg) <==> h.ys == c.parent.ys
    ensures !IsSentinel(c.token, cfg) ==>
      h.ys == c.parent.ys + [c.token] && h.scores == c.parent.scores + [c.tokenLp]
  {
    if IsSentinel(c.token, cfg) then
      Hypothesis(c.parent.ys, c.parent.scores, c.total, c.parent.timestamp)
    else
      var ys := c.parent.ys + [c.token];
      assert ys[..|c.parent.ys|] == c.parent.ys;
      var scores := c.parent.scores + [c.tokenLp];
      assert scores[..|c.parent.scores|] == c.parent.scores;
      Hypothesis(ys, scores, c.total, c.parent.timestamp + [t])
  }

  /** Lines 441-443 and 462 as written: `log_probs_t` is a reshaped view of
      `log_probs`, which `add_` then updates in place, so the score appended
      for a new token is the candidate's total path log-prob. */
  function ExpandAsWritten(c: Candidate, t: nat, cfg: Config): (h: Hypothesis)
    ensures h.logProb == c.total
    ensures !IsSentinel(c.token, cfg) ==>
      h.ys == c.parent.ys + [c.token] && h.scores == c.parent.scores + [c.total]
  {
    if IsSentinel(c.token, cfg) then
      Hypothesis(c.parent.ys, c.parent.scores, c.total, c.parent.timestamp)
    else
      Hypothesis(c.parent.ys + [c.token], c.parent.scores + [c.total], c.total, c.parent.timestamp + [t])
  }

  /** The as-written score differs from the token's log-prob whenever the
      parent's total is non-zero (the first frame's parent is always 0). */
  lemma AsWrittenScoreIsCumulative(c: Candidate, t: nat, cfg: Config)
    requires !IsSentinel(c.token, cfg)
    requires c.total == c.parent.logProb + c.tokenLp
    requires c.parent.logProb != 0.0
    ensures ExpandAsWritten(c, t, cfg).scores != Expand(c, t, cfg).scores
  {
    var n := |c.parent.scores|;
    assert ExpandAsWritten(c, t, cfg).scores[n] == c.total;
    assert Expand(c, t, cfg).scores[n] == c.tokenLp;
  }

  /** A concrete input: a parent at log-prob -1 emits token 3 with token
      log-prob -0.5; the source stores -1.5 where -0.5 is meant. */
  lemma AsWrittenCounterexample()
    ensures var cfg := Config(0, 0, 1, 5);
      var parent := Hypothesis([0, 2], [-1.0], -1.0, [0]);
      var c := Candidate(8, parent, 3, -0.5, -1.5);
      ExpandAsWritten(c, 1, cfg).scores == [-1.0, -1.5] &&
      Expand(c, 1, cfg).scores == [-1.0, -0.5]
  {
  }

  /** The token sequences the selected candidates expand to. */
  function ChildKeys(sel: seq<Candidate>, t: nat, cfg: Config): set<seq<int>> {
    set c | c in sel :: Expand(c, t, cfg).ys
  }

  function Expansions(sel: seq<Candidate>, t: nat, cfg: Config): (r: seq<Hypothesis>)
    ensures |r| == |sel| && forall k :: 0 <= k < |sel| ==> r[k] == Expand(sel[k], t, cfg)
  {
    seq(|sel|, k requires 0 <= k < |sel| => Expand(sel[k], t, cfg))
  }

  /** Add every expanded candidate to a fresh list, merging equal token
      sequences. */
  function MergeChildren(sel: seq<Candidate>, t: nat, cfg: Config, lse: (real, real) -> real): (r: HypothesisList)
    requires |sel| >= 1
    ensures 1 <= |r| <= |sel|
  {
    AddAll([], Expansions(sel, t, cfg), lse)
  }

  /** The merged list has one hypothesis per distinct expanded token
      sequence, and each continues the parent of a selected candidate.  The
      entry under each token sequence keeps the first such child's tokens,
      scores and timestamps, and its log-prob is the `lse` fold of the totals
      of all such children, in selection order. */
  lemma MergeChildrenSpec(sel: seq<Candidate>, t: nat, cfg: Config, lse: (real, real) -> real)
    requires |sel| >= 1
    ensures var r := MergeChildren(sel, t, cfg, lse);
      && KeysUnique(r)
      && Keys(r) == ChildKeys(sel, t, cfg)
      && (forall x :: x in r ==> exists c :: c in sel && ChildOf(x, c.parent, t, cfg))
      && forall y :: Lookup(r, y) == FoldKey(None, Expansions(sel, t, cfg), y, lse)
  {
    var children := Expansions(sel, t, cfg);
    AddAllSpec([], children, lse);
    assert forall y :: Lookup([], y) == None;
    MergeFacts(t, cfg, sel, children, AddAll([], children, lse));
  }

  lemma MergeFacts(t: nat, cfg: Config, sel: seq<Candidate>, children: seq<Hypothesis>, r: HypothesisList)
    requires |sel| >= 1
    requires |children| == |sel| && forall k :: 0 <= k < |sel| ==> children[k] == Expand(sel[k], t, cfg)
    requires Keys(r) == Keys([]) + Keys(children)
    requires Shapes(r) <= Shapes([]) + Shapes(children)
    ensures 1 <= |r|
    ensures Keys(r) == ChildKeys(sel, t, cfg)
    ensures forall x :: x in r ==> exists c :: c in sel && ChildOf(x, c.parent, t, cfg)
  {
    assert children[0] in children;
    assert children[0].ys in Keys(r);
    forall y | y in Keys(children) ensures y in ChildKeys(sel, t, cfg) {
      var k := KeyIndex(y, children);
      assert sel[k] in sel;
    }
    forall y | y in ChildKeys(sel, t, cfg) ensures y in Keys(children) {
      var c :| c in sel && Expand(c, t, cfg).ys == y;
      var k :| 0 <= k < |sel| && sel[k] == c;
      assert children[k] in children;
    }
    forall x | x in r ensures exists c :: c in sel && ChildOf(x, c.parent, t, cfg) {
      var k := ShapeIndex(x, r, children);
      assert sel[k] in sel;
      ShapeChild(x, children[k], sel[k].parent, t, cfg);
    }
  }

  /** One frame of one utterance given its score rows: select the `beam` best
      candidates and merge their expansions. */
  function UttStepFromScores(A: HypothesisList, lps: seq<seq<real>>, t: nat, cfg: Config, beam: nat,
                             lse: (real, real) -> real): (r: HypothesisList)
    requires 1 <= beam <= cfg.vocabSize && |A| >= 1 && |lps| == |A|
    requires forall h :: 0 <= h < |lps| ==> |lps[h]| == cfg.vocabSize
    ensures 1 <= |r| <= beam
  {
    MergeChildren(SelectCandidates(A, lps, cfg.vocabSize, beam), t, cfg, lse)
  }

  /** A frame's list has unique keys: exactly the token sequences the
      selected candidates expand to. */
  lemma UttStepFromScoresKeys(A: HypothesisList, lps: seq<seq<real>>, t: nat, cfg: Config, beam: nat,
                              lse: (real, real) -> real)
    requires 1 <= beam <= cfg.vocabSize && |A| >= 1 && |lps| == |A|
    requires forall h :: 0 <= h < |lps| ==> |lps[h]| == cfg.vocabSize
    ensures var r := UttStepFromScores(A, lps, t, cfg, beam, lse);
      KeysUnique(r) && Keys(r) == ChildKeys(SelectCandidates(A, lps, cfg.vocabSize, beam), t, cfg)
  {
    MergeChildrenSpec(SelectCandidates(A, lps, cfg.vocabSize, beam), t, cfg, lse);
  }

  /** Every hypothesis a frame keeps continues one it started from. */
  lemma UttStepDescends(A: HypothesisList, lps: seq<seq<real>>, t: nat, cfg: Config, beam: nat,
                        lse: (real, real) -> real)
    requires 1 <= beam <= cfg.vocabSize && |A| >= 1 && |lps| == |A|
    requires forall h :: 0 <= h < |lps| ==> |lps[h]| == cfg.vocabSize
    ensures Descends(UttStepFromScores(A, lps, t, cfg, beam, lse), A, t, cfg)
  {
    var sel := SelectCandidates(A, lps, cfg.vocabSize, beam);
    SelectCandidatesBest(A, lps, cfg.vocabSize, beam);
    MergeChildrenSpec(sel, t, cfg, lse);
    ParentsInList(A, sel, MergeChildren(sel, t, cfg, lse), t, cfg);
  }

  lemma ParentsInList(A: HypothesisList, sel: seq<Candidate>, r: HypothesisList, t: nat, cfg: Config)
    requires forall k :: 0 <= k < |sel| ==> sel[k].parent in A
    requires forall x :: x in r ==> exists c :: c in sel && ChildOf(x, c.parent, t, cfg)
    ensures Descends(r, A, t, cfg)
  {
    forall x | x in r ensures exists p :: p in A && ChildOf(x, p, t, cfg) {
      var c :| c in sel && ChildOf(x, c.parent, t, cfg);
      assert c.parent in A;
    }
  }

  lemma KeyIndex(y: seq<int>, l: seq<Hypothesis>) returns (k: nat)
    requires y in Keys(l)
    ensures k < |l| && l[k].ys == y
  {
    var h :| h in l && h.ys == y;
    k :| 0 <= k < |l| && l[k] == h;
  }

  lemma ShapeIndex(x: Hypothesis, r: HypothesisList, l: seq<Hypothesis>) returns (k: nat)
    requires x in r && Shapes(r) <= Shapes([]) + Shapes(l)
    ensures k < |l| && ShapeOf(l[k]) == ShapeOf(x)
  {
    assert ShapeOf(x) in Shapes(r);
    var h :| h in l && ShapeOf(h) == ShapeOf(x);
    k :| 0 <= k < |l| && l[k] == h;
  }

  /** A frame keeps the stored-hypothesis invariant, one frame further on. */
  lemma StepKeepsInvariant(A: HypothesisList, r: HypothesisList, t: nat, cfg: Config)
    requires Descends(r, A, t, cfg)
    ensures ListInvariant(A, cfg, t) ==> ListInvariant(r, cfg, t + 1)
  {
    if ListInvariant(A, cfg, t) {
      StepKeepsInvariantOn(A, r, t, cfg);
    }
  }

  lemma StepKeepsInvariantOn(A: HypothesisList, r: HypothesisList, t: nat, cfg: Config)
    requires ListInvariant(A, cfg, t)
    requires Descends(r, A, t, cfg)
    ensures ListInvariant(r, cfg, t + 1)
  {
    forall i | 0 <= i < |r| ensures HypInvariant(r[i], cfg, t + 1) {
      assert r[i] in r;
      var p :| p in A && ChildOf(r[i], p, t, cfg);
      ChildKeepsInvariant(r[i], p, t, cfg);
    }
  }

  /** The score rows of an utterance's hypotheses at frame `t`. */
  function ScoresFor(A: HypothesisList, utt: nat, t: nat, cfg: Config, score: Scorer): (lps: seq<seq<real>>)
    requires ValidScorer(score, cfg.vocabSize)
    ensures |lps| == |A| && forall h :: 0 <= h < |A| ==> |lps[h]| == cfg.vocabSize
  {
    var lps := seq(|A|, h requires 0 <= h < |A| => score(History(A[h].ys, cfg.contextSize), utt, t));
    assert forall h :: 0 <= h < |A| ==> lps[h] == score(History(A[h].ys, cfg.contextSize), utt, t);
    lps
  }

  /** One frame of utterance `utt`, scored on its own. */
  function UttStep(A: HypothesisList, utt: nat, t: nat, cfg: Config, beam: nat, score: Scorer,
                   lse: (real, real) -> real): (r: HypothesisList)
    requires 1 <= beam <= cfg.vocabSize && |A| >= 1 && ValidScorer(score, cfg.vocabSize)
    ensures 1 <= |r| <= beam
  {
    UttStepFromScores(A, ScoresFor(A, utt, t, cfg, score), t, cfg, beam, lse)
  }

  /** A frame keeps the stored-hypothesis invariant, one frame further on. */
  lemma UttStepKeepsInvariant(A: HypothesisList, utt: nat, t: nat, cfg: Config, beam: nat, score: Scorer,
                              lse: (real, real) -> real)
    requires 1 <= beam <= cfg.vocabSize && |A| >= 1 && ValidScorer(score, cfg.vocabSize)
    requires ListInvariant(A, cfg, t)
    ensures ListInvariant(UttStep(A, utt, t, cfg, beam, score, lse), cfg, t + 1)
  {
    var lps := ScoresFor(A, utt, t, cfg, score);
    UttStepDescends(A, lps, t, cfg, beam, lse);
    StepKeepsInvariant(A, UttStepFromScores(A, lps, t, cfg, beam, lse), t, cfg);
  }

  /** The hypotheses of utterance `utt` after its first `frames` frames,
      decoded on its own. */
  function BeamUpTo(utt: nat, frames: nat, cfg: Config, beam: nat, score: Scorer,
                    lse: (real, real) -> real): (l: HypothesisList)
    requires 1 <= beam <= cfg.vocabSize && ValidScorer(score, cfg.vocabSize)
    ensures 1 <= |l| <= beam
  {
    if frames == 0 then
      [InitialHypothesis(cfg)]
    else
      UttStep(BeamUpTo(utt, frames - 1, cfg, beam, score, lse), utt, frames - 1, cfg, beam, score, lse)
  }

  /** Every list the decoder stores has unique keys, as the dict at lines
      178-192 guarantees. */
  lemma BeamUpToKeysUnique(utt: nat, frames: nat, cfg: Config, beam: nat, score: Scorer,
                           lse: (real, real) -> real)
    requires 1 <= beam <= cfg.vocabSize && ValidScorer(score, cfg.vocabSize)
    ensures KeysUnique(BeamUpTo(utt, frames, cfg, beam, score, lse))
  {
    if frames == 0 {
      var l := [InitialHypothesis(cfg)];
      assert l[1..] == [];
    } else {
      var A := BeamUpTo(utt, frames - 1, cfg, beam, score, lse);
      UttStepFromScoresKeys(A, ScoresFor(A, utt, frames - 1, cfg, score), frames - 1, cfg, beam, lse);
    }
  }

  /** Each hypothesis the decoder stores has one timestamp and one score per
      emitted token, no sentinel token, and strictly increasing timestamps
      below the frames seen so far. */
  lemma {:induction false} BeamUpToInvariant(utt: nat, frames: nat, cfg: Config, beam: nat, score: Scorer,
                                             lse: (real, real) -> real)
    requires 1 <= beam <= cfg.vocabSize && ValidScorer(score, cfg.vocabSize)
    ensures ListInvariant(BeamUpTo(utt, frames, cfg, beam, score, lse), cfg, frames)
  {
    if frames == 0 {
      InitialInvariant(cfg);
      assert BeamUpTo(utt, 0, cfg, beam, score, lse) == [InitialHypothesis(cfg)];
    } else {
      BeamUpToInvariant(utt, frames - 1, cfg, beam, score, lse);
      FrameKeepsInvariant(utt, frames, cfg, beam, score, lse);
    }
  }

  lemma FrameKeepsInvariant(utt: nat, frames: nat, cfg: Config, beam: nat, score: Scorer, lse: (real, real) -> real)
    requires 1 <= beam <= cfg.vocabSize && ValidScorer(score, cfg.vocabSize) && frames >= 1
    requires ListInvariant(BeamUpTo(utt, frames - 1, cfg, beam, score, lse), cfg, frames - 1)
    ensures ListInvariant(BeamUpTo(utt, frames, cfg, beam, score, lse), cfg, frames)
  {
    var t := frames - 1;
    var prev := BeamUpTo(utt, t, cfg, beam, score, lse);
    UttStepKeepsInvariant(prev, utt, t, cfg, beam, score, lse);
    var next := UttStep(prev, utt, t, cfg, beam, score, lse);
    assert t + 1 == frames;
    assert ListInvariant(next, cfg, frames);
    assert BeamUpTo(utt, frames, cfg, beam, score, lse) == next;
  }

  /** Every score a hypothesis stores is the log-prob the scorer gave its
      token, after the start context and the tokens before it. */
  ghost predicate HypScores(h: Hypothesis, cfg: Config, utt: nat, score: Scorer) {
    && |h.ys| >= cfg.contextSize
    && h.ys[..cfg.contextSize] == InitialHypothesis(cfg).ys
    && ScoresAreTokenLogProbs(h.ys[..cfg.contextSize], h.ys[cfg.contextSize..], h.timestamp, h.scores,
                              cfg.contextSize, utt, score)
  }

  ghost predicate ListScores(l: HypothesisList, cfg: Config, utt: nat, score: Scorer) {
    forall i :: 0 <= i < |l| ==> HypScores(l[i], cfg, utt, score)
  }

  /** Expanding a candidate whose token log-prob comes from the scorer call on
      its parent's history keeps every stored score the log-prob of its token. */
  lemma ExpandScores(c: Candidate, t: nat, cfg: Config, utt: nat, score: Scorer)
    requires HypScores(c.parent, cfg, utt, score)
    requires 0 <= c.token < |score(History(c.parent.ys, cfg.contextSize), utt, t)|
    requires c.tokenLp == score(History(c.parent.ys, cfg.contextSize), utt, t)[c.token]
    ensures HypScores(Expand(c, t, cfg), cfg, utt, score)
  {
    var p := c.parent;
    if !IsSentinel(c.token, cfg) {
      ExtendScores(p.ys, p.timestamp, p.scores, cfg.contextSize, utt, score, c.token, t);
    }
  }

  /** A candidate of an utterance's row reads its token log-prob from the
      scorer call on its own parent's history, at frame `t`. */
  lemma RowScores(A: HypothesisList, utt: nat, t: nat, cfg: Config, score: Scorer, c: Candidate)
    requires cfg.vocabSize > 0 && ValidScorer(score, cfg.vocabSize)
    requires c in Candidates(A, ScoresFor(A, utt, t, cfg, score), cfg.vocabSize)
    ensures c.parent in A
    ensures 0 <= c.token < |score(History(c.parent.ys, cfg.contextSize), utt, t)|
    ensures c.tokenLp == score(History(c.parent.ys, cfg.contextSize), utt, t)[c.token]
  {
    var h := CandidateRow(A, ScoresFor(A, utt, t, cfg, score), cfg.vocabSize, c);
    ScoresForRow(A, utt, t, cfg, score, h);
  }

  /** A candidate of the row extends some `A[h]` and reads row `h`. */
  lemma CandidateRow(A: HypothesisList, lps: seq<seq<real>>, v: nat, c: Candidate) returns (h: nat)
    requires v > 0 && |lps| == |A|
    requires forall i :: 0 <= i < |lps| ==> |lps[i]| == v
    requires c in Candidates(A, lps, v)
    ensures h < |A| && c.parent == A[h] && 0 <= c.token < v && c.tokenLp == lps[h][c.token]
  {
    var cands := Candidates(A, lps, v);
    var k :| 0 <= k < |cands| && cands[k] == c;
    h := CandidateAtRow(A, lps, v, k);
  }

  lemma CandidateAtRow(A: HypothesisList, lps: seq<seq<real>>, v: nat, k: nat) returns (h: nat)
    requires v > 0 && |lps| == |A| && k < |A| * v
    requires forall i :: 0 <= i < |lps| ==> |lps[i]| == v
    ensures var c := CandidateAt(A, lps, v, k);
      h < |A| && c.parent == A[h] && 0 <= c.token < v && c.tokenLp == lps[h][c.token]
  {
    h := k / v;
  }

  /** Row `h` of the score rows is the scorer call on `A[h]`'s history. */
  lemma ScoresForRow(A: HypothesisList, utt: nat, t: nat, cfg: Config, score: Scorer, h: nat)
    requires ValidScorer(score, cfg.vocabSize) && h < |A|
    ensures ScoresFor(A, utt, t, cfg, score)[h] == score(History(A[h].ys, cfg.contextSize), utt, t)
  {
  }

  /** A frame keeps every stored score the log-prob of its token: each merged
      entry carries the tokens, timestamps and scores of one expanded child. */
  lemma UttStepKeepsScores(A: HypothesisList, utt: nat, t: nat, cfg: Config, beam: nat, score: Scorer,
                           lse: (real, real) -> real)
    requires 1 <= beam <= cfg.vocabSize && |A| >= 1 && ValidScorer(score, cfg.vocabSize)
    requires ListScores(A, cfg, utt, score)
    ensures ListScores(UttStep(A, utt, t, cfg, beam, score, lse), cfg, utt, score)
  {
    var lps := ScoresFor(A, utt, t, cfg, score);
    var sel := SelectCandidates(A, lps, cfg.vocabSize, beam);
    var children := Expansions(sel, t, cfg);
    ChildrenScores(A, utt, t, cfg, beam, score, sel);
    var r := AddAll([], children, lse);
    AddAllSpec([], children, lse);
    forall i | 0 <= i < |r| ensures HypScores(r[i], cfg, utt, score) {
      assert r[i] in r;
      var k := ShapeIndex(r[i], r, children);
      assert HypScores(children[k], cfg, utt, score);
    }
  }

  lemma ChildrenScores(A: HypothesisList, utt: nat, t: nat, cfg: Config, beam: nat, score: Scorer, sel: seq<Candidate>)
    requires 1 <= beam <= cfg.vocabSize && |A| >= 1 && ValidScorer(score, cfg.vocabSize)
    requires ListScores(A, cfg, utt, score)
    requires sel == SelectCandidates(A, ScoresFor(A, utt, t, cfg, score), cfg.vocabSize, beam)
    ensures forall k :: 0 <= k < |sel| ==> HypScores(Expand(sel[k], t, cfg), cfg, utt, score)
  {
    SelectCandidatesBest(A, ScoresFor(A, utt, t, cfg, score), cfg.vocabSize, beam);
    forall k | 0 <= k < |sel| ensures HypScores(Expand(sel[k], t, cfg), cfg, utt, score) {
      assert sel[k] in sel;
      RowScores(A, utt, t, cfg, score, sel[k]);
      var i :| 0 <= i < |A| && A[i] == sel[k].parent;
      ExpandScores(sel[k], t, cfg, utt, score);
    }
  }

  /** Every hypothesis the decoder stores, after any number of frames, holds
      as score `k` the log-prob of its token `k` (see ScoresAreTokenLogProbs). */
  lemma {:induction false} BeamUpToScores(utt: nat, frames: nat, cfg: Config, beam: nat, score: Scorer,
                                          lse: (real, real) -> real)
    requires 1 <= beam <= cfg.vocabSize && ValidScorer(score, cfg.vocabSize)
    ensures ListScores(BeamUpTo(utt, frames, cfg, beam, score, lse), cfg, utt, score)
  {
    if frames == 0 {
      InitialScores(cfg, utt, score);
      assert BeamUpTo(utt, 0, cfg, beam, score, lse) == [InitialHypothesis(cfg)];
    } else {
      BeamUpToScores(utt, frames - 1, cfg, beam, score, lse);
      FrameKeepsScores(utt, frames, cfg, beam, score, lse);
    }
  }

  lemma InitialScores(cfg: Config, utt: nat, score: Scorer)
    ensures ListScores([InitialHypothesis(cfg)], cfg, utt, score)
  {
    var h := InitialHypothesis(cfg);
    assert h.ys[..cfg.contextSize] == h.ys && h.ys[cfg.contextSize..] == [];
  }

  lemma FrameKeepsScores(utt: nat, frames: nat, cfg: Config, beam: nat, score: Scorer, lse: (real, real) -> real)
    requires 1 <= beam <= cfg.vocabSize && ValidScorer(score, cfg.vocabSize) && frames >= 1
    requires ListScores(BeamUpTo(utt, frames - 1, cfg, beam, score, lse), cfg, utt, score)
    ensures ListScores(BeamUpTo(utt, frames, cfg, beam, score, lse), cfg, utt, score)
  {
    var prev := BeamUpTo(utt, frames - 1, cfg, beam, score, lse);
    UttStepKeepsScores(prev, utt, frames - 1, cfg, beam, score, lse);
    assert BeamUpTo(utt, frames, cfg, beam, score, lse) == UttStep(prev, utt, frames - 1, cfg, beam, score, lse);
  }

  /** One frame of the whole batch, the way the source lays it out: flatten
      every running utterance's hypotheses, find each flat hypothesis's
      utterance through the row ids, score all of them in one call, then hand
      each utterance its slice of the rows.  Batching changes nothing: each
      utterance gets what scoring it alone would give. */
  function BatchStep(B: seq<HypothesisList>, utts: seq<nat>, t: nat, cfg: Config, beam: nat, score: Scorer,
                     lse: (real, real) -> real): (r: seq<HypothesisList>)
    requires |utts| == |B|
    requires 1 <= beam <= cfg.vocabSize && ValidScorer(score, cfg.vocabSize)
    requires forall i :: 0 <= i < |B| ==> |B[i]| >= 1
    ensures |r| == |B|
    ensures forall i :: 0 <= i < |B| ==> r[i] == UttStep(B[i], utts[i], t, cfg, beam, score, lse)
  {
    var splits := RowSplits(B);
    var flat := Flatten(B);
    Layout(B);
    var ids := RowSplitsToRowIds(splits);
    var lps := FlatScores(flat, ids, utts, t, cfg, score);
    var r := SplitRows(B, lps, splits, t, cfg, beam, score, lse);
    BatchAgrees(B, utts, t, cfg, beam, score, lse, splits, flat, ids, lps, r);
    r
  }

  /** Each utterance's slice of the flat scores is what scoring it alone
      gives, so its share of the batched frame is its own frame.  The layout
      of the flat sequence enters only through where each row sits. */
  lemma BatchAgrees(B: seq<HypothesisList>, utts: seq<nat>, t: nat, cfg: Config, beam: nat, score: Scorer,
                    lse: (real, real) -> real, splits: seq<nat>, flat: seq<Hypothesis>, ids: seq<nat>,
                    lps: seq<seq<real>>, r: seq<HypothesisList>)
    requires |utts| == |B| && 1 <= beam <= cfg.vocabSize && ValidScorer(score, cfg.vocabSize)
    requires forall i :: 0 <= i < |B| ==> |B[i]| >= 1
    requires LaidOut(B, splits, flat, ids)
    requires lps == FlatScores(flat, ids, utts, t, cfg, score)
    requires r == SplitRows(B, lps, splits, t, cfg, beam, score, lse)
    ensures forall i :: 0 <= i < |B| ==> r[i] == UttStep(B[i], utts[i], t, cfg, beam, score, lse)
  {
    forall i | 0 <= i < |B| ensures r[i] == UttStep(B[i], utts[i], t, cfg, beam, score, lse) {
      var lo := splits[i];
      var want := ScoresFor(B[i], utts[i], t, cfg, score);
      forall k | 0 <= k < |B[i]| ensures lps[lo + k] == want[k] {
        var h := B[i][k];
        assert flat[lo + k] == h && ids[lo + k] == i;
      }
      SliceOf(lps, want, lo);
      assert Rows(lps, lo, lo + |B[i]|, cfg.vocabSize) == want;
    }
  }

  /** A run of `a` that agrees with `b` element by element is `b`. */
  lemma SliceOf<X>(a: seq<X>, b: seq<X>, lo: nat)
    requires lo + |b| <= |a|
    requires forall k :: 0 <= k < |b| ==> a[lo + k] == b[k]
    ensures a[lo..lo + |b|] == b
  {
  }

  /** The single scorer call of a frame: one row per flat hypothesis, scored
      against the frame of the utterance that owns it. */
  function FlatScores(flat: seq<Hypothesis>, owners: seq<nat>, utts: seq<nat>, t: nat, cfg: Config,
                      score: Scorer): (lps: seq<seq<real>>)
    requires |owners| == |flat| && forall j :: 0 <= j < |owners| ==> owners[j] < |utts|
    requires ValidScorer(score, cfg.vocabSize)
    ensures |lps| == |flat|
    ensures forall j :: 0 <= j < |flat| ==> |lps[j]| == cfg.vocabSize
    ensures forall j :: 0 <= j < |flat| ==>
      lps[j] == score(History(flat[j].ys, cfg.contextSize), utts[owners[j]], t)
  {
    var lps := seq(|flat|, j requires 0 <= j < |flat| =>
      score(History(flat[j].ys, cfg.contextSize), utts[owners[j]], t));
    assert forall j :: 0 <= j < |flat| ==> lps[j] == score(History(flat[j].ys, cfg.contextSize), utts[owners[j]], t);
    lps
  }

  /** Hand each utterance its slice of the rows and run its frame. */
  function SplitRows(B: seq<HypothesisList>, lps: seq<seq<real>>, splits: seq<nat>, t: nat, cfg: Config,
                     beam: nat, score: Scorer, lse: (real, real) -> real): (r: seq<HypothesisList>)
    requires 1 <= beam <= cfg.vocabSize
    requires |splits| == |B| + 1
    requires forall i {:trigger B[i]} :: 0 <= i < |B| ==> |B[i]| >= 1 && splits[i] + |B[i]| <= |lps|
    requires forall j :: 0 <= j < |lps| ==> |lps[j]| == cfg.vocabSize
    ensures |r| == |B|
    ensures forall i {:trigger r[i]} :: 0 <= i < |B| ==>
      r[i] == UttStepFromScores(B[i], Rows(lps, splits[i], splits[i] + |B[i]|, cfg.vocabSize), t, cfg, beam, lse)
  {
    var r := seq(|B|, i requires 0 <= i < |B| =>
      UttStepFromScores(B[i], Rows(lps, splits[i], splits[i] + |B[i]|, cfg.vocabSize), t, cfg, beam, lse));
    r
  }

  /** The rows `lo .. hi-1` of a frame's scores. */
  function Rows(lps: seq<seq<real>>, lo: nat, hi: nat, v: nat): (r: seq<seq<real>>)
    requires lo <= hi <= |lps| && forall j :: 0 <= j < |lps| ==> |lps[j]| == v
    ensures r == lps[lo..hi] && |r| == hi - lo
    ensures forall k :: 0 <= k < |r| ==> |r[k]| == v
  {
    lps[lo..hi]
  }

  /** `get_most_probable(length_norm=True)`: a hypothesis whose log-prob per
      token, context prefix included, is largest. */
  function BestHypothesis(l: HypothesisList, cfg: Config): (h: Hypothesis)
    requires cfg.contextSize >= 1 && |l| >= 1
    requires forall i :: 0 <= i < |l| ==> |l[i].ys| >= cfg.contextSize
    ensures h in l
    ensures |h.ys| >= 1
    ensures forall g :: g in l ==> Ranking(g, true) <= Ranking(h, true)
  {
    GetMostProbable(l, true).value
  }

  /** What the decoder reports of a hypothesis: its tokens after the context
      prefix, its timestamps and its scores. */
  function OutputOf(h: Hypothesis, cfg: Config): (r: (seq<int>, seq<nat>, seq<real>))
    requires |h.ys| >= cfg.contextSize
    ensures cfg.contextSize + |r.0| == |h.ys| && h.ys == h.ys[..cfg.contextSize] + r.0
    ensures r.1 == h.timestamp && r.2 == h.scores
  {
    (h.ys[cfg.contextSize..], h.timestamp, h.scores)
  }

  /** The output of utterance `utt` decoded alone over its `frames` frames:
      the best of its final hypotheses, which is well formed. */
  function BeamOutput(utt: nat, frames: nat, cfg: Config, beam: nat, score: Scorer,
                      lse: (real, real) -> real): (r: (seq<int>, seq<nat>, seq<real>))
    requires cfg.contextSize >= 1 && 1 <= beam <= cfg.vocabSize && ValidScorer(score, cfg.vocabSize)
    ensures WellFormedOutput(r.0, r.1, r.2, cfg, frames)
    ensures ScoresAreTokenLogProbs(InitialHypothesis(cfg).ys, r.0, r.1, r.2, cfg.contextSize, utt, score)
  {
    var l := BeamUpTo(utt, frames, cfg, beam, score, lse);
    BeamUpToInvariant(utt, frames, cfg, beam, score, lse);
    BeamUpToScores(utt, frames, cfg, beam, score, lse);
    var h := BestHypothesis(l, cfg);
    var i :| 0 <= i < |l| && l[i] == h;
    assert HypInvariant(l[i], cfg, frames);
    assert HypScores(l[i], cfg, utt, score);
    Report(l, cfg)
  }

  /** `get_most_probable(length_norm=True)` on one final list, reported. */
  function Report(l: HypothesisList, cfg: Config): (r: (seq<int>, seq<nat>, seq<real>))
    requires cfg.contextSize >= 1 && |l| >= 1
    requires forall i :: 0 <= i < |l| ==> |l[i].ys| >= cfg.contextSize
  {
    OutputOf(BestHypothesis(l, cfg), cfg)
  }

  /** The frame loop of the batched decoder.  Positions of `sorted` at or past
      `batchSizes[t]` retire before frame `t`; each retired list stays as it
      was.  Every list ends equal to its utterance decoded alone. */
  method BeamFrames(lengths: seq<int>, sorted: seq<nat>, batchSizes: seq<nat>, cfg: Config, beam: nat,
                    score: Scorer, lse: (real, real) -> real) returns (all: seq<HypothesisList>)
    requires 1 <= beam <= cfg.vocabSize && ValidScorer(score, cfg.vocabSize)
    requires Schedule(lengths, sorted, batchSizes) && |batchSizes| >= 1
    ensures all == FinalLists(lengths, sorted, cfg, beam, score, lse)
  {
    var n := |sorted|;
    ghost var want := FinalLists(lengths, sorted, cfg, beam, score, lse);
    var B: seq<HypothesisList> := seq(n, _ => [InitialHypothesis(cfg)]);
    var finalized: seq<HypothesisList> := [];
    var t := 0;
    while t < |batchSizes|
      invariant 0 <= t <= |batchSizes|
      invariant |B| == (if t == 0 then n else batchSizes[t - 1])
      invariant Running(B, sorted, t, cfg, beam, score, lse)
      invariant Finished(finalized, want, |B|)
    {
      var batchSize := batchSizes[t];
      ScheduleStep(lengths, sorted, batchSizes, t, |B|);
      var retired := B[batchSize..] + finalized;
      RetiringAreFinal(lengths, sorted, batchSizes, t, cfg, beam, score, lse, B, want);
      Retire(B, finalized, batchSize, want, retired);
      finalized := retired;
      B := BeamFrame(B, sorted, batchSize, t, cfg, beam, score, lse);
      t := t + 1;
    }
    FinishFrames(lengths, sorted, batchSizes, cfg, beam, score, lse, B, finalized, want);
    all := B + finalized;
  }

  /** The first `|B|` sorted positions hold their hypotheses after `t` frames. */
  ghost predicate Running(B: seq<HypothesisList>, sorted: seq<nat>, t: nat, cfg: Config, beam: nat,
                          score: Scorer, lse: (real, real) -> real)
    requires 1 <= beam <= cfg.vocabSize && ValidScorer(score, cfg.vocabSize)
  {
    |B| <= |sorted| && forall i :: 0 <= i < |B| ==> B[i] == BeamUpTo(sorted[i], t, cfg, beam, score, lse)
  }

  /** The retired lists are the final lists of sorted positions `offset` onwards. */
  ghost predicate Finished<T>(finalized: seq<T>, want: seq<T>, offset: nat) {
    offset + |finalized| == |want| && forall j :: 0 <= j < |finalized| ==> finalized[j] == want[offset + j]
  }

  /** Before frame `t`, the positions past `batchSizes[t]` have run all their
      frames. */
  lemma RetiringAreFinal(lengths: seq<int>, sorted: seq<nat>, batchSizes: seq<nat>, t: nat, cfg: Config, beam: nat,
                         score: Scorer, lse: (real, real) -> real, B: seq<HypothesisList>, want: seq<HypothesisList>)
    requires 1 <= beam <= cfg.vocabSize && ValidScorer(score, cfg.vocabSize)
    requires Schedule(lengths, sorted, batchSizes) && t < |batchSizes|
    requires |B| == if t == 0 then |sorted| else batchSizes[t - 1]
    requires Running(B, sorted, t, cfg, beam, score, lse)
    requires want == FinalLists(lengths, sorted, cfg, beam, score, lse)
    ensures forall i :: batchSizes[t] <= i < |B| ==> B[i] == want[i]
  {
    ScheduleStep(lengths, sorted, batchSizes, t, |B|);
    forall i | batchSizes[t] <= i < |B| ensures B[i] == want[i] {
      assert lengths[sorted[i]] == t;
    }
  }

  /** After the last frame the running positions are done as well. */
  lemma FinishFrames(lengths: seq<int>, sorted: seq<nat>, batchSizes: seq<nat>, cfg: Config, beam: nat,
                     score: Scorer, lse: (real, real) -> real,
                     B: seq<HypothesisList>, finalized: seq<HypothesisList>, want: seq<HypothesisList>)
    requires 1 <= beam <= cfg.vocabSize && ValidScorer(score, cfg.vocabSize)
    requires Schedule(lengths, sorted, batchSizes) && |batchSizes| >= 1
    requires |B| == batchSizes[|batchSizes| - 1]
    requires Running(B, sorted, |batchSizes|, cfg, beam, score, lse)
    requires Finished(finalized, want, |B|)
    requires want == FinalLists(lengths, sorted, cfg, beam, score, lse)
    ensures B + finalized == want
  {
    ScheduleEnd(lengths, sorted, batchSizes, |B|);
    forall i | 0 <= i < |B| ensures B[i] == want[i] {
      assert lengths[sorted[i]] == |batchSizes|;
    }
    Assemble(B, finalized, want);
  }

  /** One frame for the first `batchSize` sorted positions, which are still
      running. */
  method BeamFrame(B: seq<HypothesisList>, sorted: seq<nat>, batchSize: nat, t: nat,
                   cfg: Config, beam: nat, score: Scorer, lse: (real, real) -> real) returns (next: seq<HypothesisList>)
    requires 1 <= beam <= cfg.vocabSize && ValidScorer(score, cfg.vocabSize)
    requires batchSize <= |B|
    requires Running(B, sorted, t, cfg, beam, score, lse)
    ensures |next| == batchSize
    ensures Running(next, sorted, t + 1, cfg, beam, score, lse)
  {
    var running := B[..batchSize];
    var utts := sorted[..batchSize];
    RunningPrefix(B, sorted, batchSize, t, cfg, beam, score, lse);
    next := BatchStep(running, utts, t, cfg, beam, score, lse);
    FrameAgrees(running, utts, next, sorted, t, cfg, beam, score, lse);
  }

  lemma RunningPrefix(B: seq<HypothesisList>, sorted: seq<nat>, batchSize: nat, t: nat,
                      cfg: Config, beam: nat, score: Scorer, lse: (real, real) -> real)
    requires 1 <= beam <= cfg.vocabSize && ValidScorer(score, cfg.vocabSize)
    requires batchSize <= |B| && Running(B, sorted, t, cfg, beam, score, lse)
    ensures Running(B[..batchSize], sorted[..batchSize], t, cfg, beam, score, lse)
    ensures forall i :: 0 <= i < batchSize ==> |B[..batchSize][i]| >= 1
  {
    assert forall i :: 0 <= i < batchSize ==> B[..batchSize][i] == B[i] && sorted[..batchSize][i] == sorted[i];
  }

  /** The batched step took every running list one frame further. */
  lemma FrameAgrees(running: seq<HypothesisList>, utts: seq<nat>, next: seq<HypothesisList>, sorted: seq<nat>, t: nat,
                    cfg: Config, beam: nat, score: Scorer, lse: (real, real) -> real)
    requires 1 <= beam <= cfg.vocabSize && ValidScorer(score, cfg.vocabSize)
    requires Running(running, utts, t, cfg, beam, score, lse)
    requires |next| == |running| == |utts| <= |sorted| && utts == sorted[..|utts|]
    requires forall i :: 0 <= i < |running| ==>
      |running[i]| >= 1 && next[i] == UttStep(running[i], utts[i], t, cfg, beam, score, lse)
    ensures Running(next, sorted, t + 1, cfg, beam, score, lse)
  {
    forall i | 0 <= i < |next| ensures next[i] == BeamUpTo(sorted[i], t + 1, cfg, beam, score, lse) {
      assert utts[i] == sorted[i];
      BeamUpToStep(sorted[i], t, cfg, beam, score, lse);
    }
  }

  lemma BeamUpToStep(utt: nat, t: nat, cfg: Config, beam: nat, score: Scorer, lse: (real, real) -> real)
    requires 1 <= beam <= cfg.vocabSize && ValidScorer(score, cfg.vocabSize)
    ensures BeamUpTo(utt, t + 1, cfg, beam, score, lse)
      == UttStep(BeamUpTo(utt, t, cfg, beam, score, lse), utt, t, cfg, beam, score, lse)
  {
  }

  /** Every sorted position's hypotheses after all of its frames. */
  function FinalLists(lengths: seq<int>, sorted: seq<nat>, cfg: Config, beam: nat, score: Scorer,
                      lse: (real, real) -> real): (r: seq<HypothesisList>)
    requires 1 <= beam <= cfg.vocabSize && ValidScorer(score, cfg.vocabSize)
    requires forall k :: 0 <= k < |sorted| ==> sorted[k] < |lengths| && lengths[sorted[k]] >= 0
    ensures |r| == |sorted|
    ensures forall k :: 0 <= k < |sorted| ==> r[k] == BeamUpTo(sorted[k], lengths[sorted[k]], cfg, beam, score, lse)
  {
    seq(|sorted|, k requires 0 <= k < |sorted| => BeamUpTo(sorted[k], lengths[sorted[k]], cfg, beam, score, lse))
  }

  /** Before frame `t` the running count drops to `batchSizes[t]`, and the
      positions that retire have exactly `t` frames. */
  lemma ScheduleStep(lengths: seq<int>, sorted: seq<nat>, batchSizes: seq<nat>, t: nat, running: nat)
    requires Schedule(lengths, sorted, batchSizes) && t < |batchSizes|
    requires running == if t == 0 then |sorted| else batchSizes[t - 1]
    ensures batchSizes[t] <= running
    ensures forall i :: batchSizes[t] <= i < running ==> lengths[sorted[i]] == t
  {
    var b := batchSizes[t];
    if running < |sorted| {
      assert t > 0 && !(lengths[sorted[running]] > t - 1);
    }
    if t == 0 {
      assert forall i :: 0 <= i < |sorted| ==> lengths[sorted[i]] > 0;
    }
  }

  /** After the last frame, every running position has used all its frames. */
  lemma ScheduleEnd(lengths: seq<int>, sorted: seq<nat>, batchSizes: seq<nat>, running: nat)
    requires Schedule(lengths, sorted, batchSizes) && |batchSizes| >= 1
    requires running == batchSizes[|batchSizes| - 1]
    ensures forall i :: 0 <= i < running ==> lengths[sorted[i]] == |batchSizes|
  {
  }

  lemma Assemble<T>(B: seq<T>, finalized: seq<T>, want: seq<T>)
    requires |B| + |finalized| == |want|
    requires forall i :: 0 <= i < |B| ==> B[i] == want[i]
    requires forall j :: 0 <= j < |finalized| ==> finalized[j] == want[|B| + j]
    ensures B + finalized == want
  {
  }

  /** Prepending the retiring tail keeps the finished lists in sorted order. */
  lemma Retire<T>(before: seq<T>, finalized: seq<T>, batchSize: nat, want: seq<T>, after: seq<T>)
    requires batchSize <= |before| && Finished(finalized, want, |before|)
    requires forall i :: batchSize <= i < |before| ==> before[i] == want[i]
    requires after == before[batchSize..] + finalized
    ensures Finished(after, want, batchSize)
  {
  }

  /** `modified_beam_search`.  Refuses an empty batch or a non-positive
      length first, then a beam outside 1 .. vocabulary size.  Otherwise every
      utterance's output equals its own single-utterance decode, whatever the
      batch and the sort order. */
  method ModifiedBeamSearch(lengths: seq<int>, cfg: Config, beam: int, score: Scorer, lse: (real, real) -> real)
    returns (res: Result<DecodingResults, DecodeError>)
    requires cfg.contextSize >= 1 && ValidScorer(score, cfg.vocabSize)
    ensures res.Err? <==> !ValidLengths(lengths) || !(1 <= beam <= cfg.vocabSize)
    ensures res.Err? && !ValidLengths(lengths) ==> CheckLengths(lengths) == Some(res.error)
    ensures res.Err? && ValidLengths(lengths) ==> res.error == BeamOutOfRange
    ensures res.Ok? ==>
      && |res.value.hyps| == |lengths|
      && |res.value.timestamps| == |lengths|
      && |res.value.scores| == |lengths|
      && forall i :: 0 <= i < |lengths| ==>
        (res.value.hyps[i], res.value.timestamps[i], res.value.scores[i])
          == BeamOutput(i, lengths[i], cfg, beam, score, lse)
    ensures res.Ok? ==> forall i :: 0 <= i < |lengths| ==>
      WellFormedOutput(res.value.hyps[i], res.value.timestamps[i], res.value.scores[i], cfg, lengths[i])
    ensures res.Ok? ==> forall i :: 0 <= i < |lengths| ==>
      ScoresAreTokenLogProbs(InitialHypothesis(cfg).ys, res.value.hyps[i], res.value.timestamps[i],
                             res.value.scores[i], cfg.contextSize, i, score)
  {
    var check := CheckLengths(lengths);
    if check.Some? {
      return Err(check.value);
    }
    var beamCheck := CheckBeam(beam, cfg);
    if beamCheck.Some? {
      return Err(beamCheck.value);
    }
    var ans := DecodeSorted(lengths, cfg, beam, score, lse);
    res := Ok(Collect(ans));
  }

  /** Packs the batch, runs the frame loop and returns the best hypothesis of
      every utterance in caller order. */
  method DecodeSorted(lengths: seq<int>, cfg: Config, beam: nat, score: Scorer, lse: (real, real) -> real)
    returns (ans: seq<(seq<int>, seq<nat>, seq<real>)>)
    requires cfg.contextSize >= 1 && 1 <= beam <= cfg.vocabSize && ValidScorer(score, cfg.vocabSize)
    requires ValidLengths(lengths)
    ensures |ans| == |lengths|
    ensures forall i :: 0 <= i < |lengths| ==> ans[i] == BeamOutput(i, lengths[i], cfg, beam, score, lse)
  {
    var pk := Pack(lengths);
    PackSchedule(lengths);
    BatchSizesShape(lengths);
    var all := BeamFrames(lengths, pk.sortedIndices, pk.batchSizes, cfg, beam, score, lse);
    var outputs := BestOutputs(all, pk.sortedIndices, lengths, cfg, beam, score, lse);
    ans := Unsort(outputs, pk);
    UnsortedBeamOutputs(lengths, pk, ans, cfg, beam, score, lse);
  }

  /** `best_hyps = [h.get_most_probable(length_norm=True) for h in B]`: the
      best hypothesis of every list the frame loop built, reported.  When the
      lists are the single-utterance decodes, so are the reports. */
  function BestOutputs(all: seq<HypothesisList>, sorted: seq<nat>, lengths: seq<int>, cfg: Config, beam: nat,
                       score: Scorer, lse: (real, real) -> real): (r: seq<(seq<int>, seq<nat>, seq<real>)>)
    requires cfg.contextSize >= 1 && 1 <= beam <= cfg.vocabSize && ValidScorer(score, cfg.vocabSize)
    requires |all| == |sorted| && forall k :: 0 <= k < |sorted| ==> sorted[k] < |lengths| && lengths[sorted[k]] >= 0
    requires forall k :: 0 <= k < |sorted| ==>
      all[k] == BeamUpTo(sorted[k], lengths[sorted[k]], cfg, beam, score, lse)
    ensures |r| == |sorted|
    ensures forall k :: 0 <= k < |sorted| ==> r[k] == BeamOutput(sorted[k], lengths[sorted[k]], cfg, beam, score, lse)
  {
    FinalListsReportable(all, sorted, lengths, cfg, beam, score, lse);
    seq(|all|, k requires 0 <= k < |all| => Report(all[k], cfg))
  }

  lemma FinalListsReportable(all: seq<HypothesisList>, sorted: seq<nat>, lengths: seq<int>, cfg: Config, beam: nat,
                             score: Scorer, lse: (real, real) -> real)
    requires cfg.contextSize >= 1 && 1 <= beam <= cfg.vocabSize && ValidScorer(score, cfg.vocabSize)
    requires |all| == |sorted| && forall k :: 0 <= k < |sorted| ==> sorted[k] < |lengths| && lengths[sorted[k]] >= 0
    requires forall k :: 0 <= k < |sorted| ==>
      all[k] == BeamUpTo(sorted[k], lengths[sorted[k]], cfg, beam, score, lse)
    ensures forall k :: 0 <= k < |all| ==>
      |all[k]| >= 1 && forall i :: 0 <= i < |all[k]| ==> |all[k][i].ys| >= cfg.contextSize
  {
    forall k | 0 <= k < |all|
      ensures |all[k]| >= 1 && forall i :: 0 <= i < |all[k]| ==> |all[k][i].ys| >= cfg.contextSize
    {
      BeamUpToInvariant(sorted[k], lengths[sorted[k]], cfg, beam, score, lse);
    }
  }

  lemma UnsortedBeamOutputs(lengths: seq<int>, pk: Packed, ans: seq<(seq<int>, seq<nat>, seq<real>)>, cfg: Config,
                            beam: nat, score: Scorer, lse: (real, real) -> real)
    requires cfg.contextSize >= 1 && 1 <= beam <= cfg.vocabSize && ValidScorer(score, cfg.vocabSize)
    requires ValidLengths(lengths) && pk == Pack(lengths)
    requires |ans| == |lengths|
    requires forall k :: 0 <= k < |lengths| ==>
      ans[pk.sortedIndices[k]] == BeamOutput(pk.sortedIndices[k], lengths[pk.sortedIndices[k]], cfg, beam, score, lse)
    ensures forall i :: 0 <= i < |lengths| ==> ans[i] == BeamOutput(i, lengths[i], cfg, beam, score, lse)
  {
    forall i | 0 <= i < |lengths| ensures ans[i] == BeamOutput(i, lengths[i], cfg, beam, score, lse) {
      var k := pk.unsortedIndices[i];
      assert pk.sortedIndices[k] == i;
    }
  }
}

=== FILE: decoding.dfy ===
/** Types shared by the greedy and beam decoders. */
module Decoding {

  /** A decode call that the code rejects with an exception. */
  datatype DecodeError =
    | EmptyBatch         // the batch holds no utterance
    | NonPositiveLength  // some utterance has no valid frame
    | BeamOutOfRange     // the beam is below 1 or wider than the vocabulary

  /** Constants the transducer model fixes: sentinel token IDs, the number of
      previous tokens the prediction network reads, and the vocabulary size. */
  datatype Config = Config(blankId: int, unkId: int, contextSize: nat, vocabSize: nat)

  /** The network folded into one function: given the last `contextSize`
      tokens of a path, the original index of its utterance and a frame, the
      log-probability of every vocabulary entry (temperature already applied). */
  type Scorer = (seq<int>, nat, nat) -> seq<real>

  ghost predicate ValidScorer(score: Scorer, vocabSize: nat) {
    forall history, utt, t :: |score(history, utt, t)| == vocabSize
  }

  /** Python's `ys[-c:]`: the last `c` tokens, or all of them when fewer.
      With `c == 0` the slice is `ys[0:]`, the whole path. */
  function History(ys: seq<int>, c: nat): (h: seq<int>)
    ensures 1 <= c <= |ys| ==> |h| == c && ys == ys[..|ys| - c] + h
    ensures c == 0 || |ys| < c ==> h == ys
  {
    if c == 0 || |ys| < c then ys else ys[|ys| - c..]
  }

  /** Tokens that are never emitted: blank and unknown. */
  predicate IsSentinel(token: int, cfg: Config) {
    token == cfg.blankId || token == cfg.unkId
  }

  /** The per-utterance outputs, in caller order. */
  datatype DecodingResults = DecodingResults(timestamps: seq<seq<nat>>, hyps: seq<seq<int>>, scores: seq<seq<real>>)

  /** The three per-utterance lists of `DecodingResults`, split out of one
      (tokens, timestamps, scores) triple per utterance. */
  function Collect(ans: seq<(seq<int>, seq<nat>, seq<real>)>): (r: DecodingResults)
    ensures |r.hyps| == |ans| && |r.timestamps| == |ans| && |r.scores| == |ans|
    ensures forall i :: 0 <= i < |ans| ==> (r.hyps[i], r.timestamps[i], r.scores[i]) == ans[i]
  {
    DecodingResults(
      seq(|ans|, i requires 0 <= i < |ans| => ans[i].1),
      seq(|ans|, i requires 0 <= i < |ans| => ans[i].0),
      seq(|ans|, i requires 0 <= i < |ans| => ans[i].2))
  }

  /** What the decoders promise of one emitted path: no sentinel token, one
      timestamp and one score per token, timestamps strictly increasing and
      inside the utterance's `frames` valid frames. */
  ghost predicate WellFormedOutput(tokens: seq<int>, timestamps: seq<nat>, scores: seq<real>, cfg: Config, frames: nat) {
    && |tokens| == |timestamps| == |scores|
    && (forall k :: 0 <= k < |tokens| ==> !IsSentinel(tokens[k], cfg))
    && (forall a, b :: 0 <= a < b < |timestamps| ==> timestamps[a] < timestamps[b])
    && (forall k :: 0 <= k < |timestamps| ==> timestamps[k] < frames)
  }

  /** What an emitted path's scores are: score `k` is the log-prob the scorer
      gave token `k` at frame `timestamps[k]`, reading the history made of the
      start context `prefix` and the tokens emitted before token `k`. */
  ghost predicate ScoresAreTokenLogProbs(prefix: seq<int>, tokens: seq<int>, timestamps: seq<nat>, scores: seq<real>,
                                         c: nat, utt: nat, score: Scorer) {
    && |tokens| == |timestamps| == |scores|
    && forall k :: 0 <= k < |scores| ==>
         && 0 <= tokens[k] < |score(History(prefix + tokens[..k], c), utt, timestamps[k])|
         && scores[k] == score(History(prefix + tokens[..k], c), utt, timestamps[k])[tokens[k]]
  }

  /** Emitting `tok` at frame `t` with the log-prob the scorer gives it after
      the path so far keeps every score the log-prob of its token. */
  lemma AppendKeepsScores(prefix: seq<int>, tokens: seq<int>, timestamps: seq<nat>, scores: seq<real>,
                          c: nat, utt: nat, score: Scorer, tok: int, t: nat)
    requires ScoresAreTokenLogProbs(prefix, tokens, timestamps, scores, c, utt, score)
    requires 0 <= tok < |score(History(prefix + tokens, c), utt, t)|
    ensures ScoresAreTokenLogProbs(prefix, tokens + [tok], timestamps + [t],
                                   scores + [score(History(prefix + tokens, c), utt, t)[tok]], c, utt, score)
  {
    var longer := tokens + [tok];
    assert longer[..|tokens|] == tokens;
    forall k | 0 <= k < |tokens|
      ensures longer[..k] == tokens[..k]
    {
    }
  }

  /** The same, on a whole path `ys` whose first `c` entries are the start
      context: appending a token leaves the context alone and extends the
      emitted tokens by it. */
  lemma ExtendScores(ys: seq<int>, timestamps: seq<nat>, scores: seq<real>, c: nat, utt: nat, score: Scorer,
                     tok: int, t: nat)
    requires |ys| >= c && ScoresAreTokenLogProbs(ys[..c], ys[c..], timestamps, scores, c, utt, score)
    requires 0 <= tok < |score(History(ys, c), utt, t)|
    ensures (ys + [tok])[..c] == ys[..c]
    ensures ScoresAreTokenLogProbs(ys[..c], (ys + [tok])[c..], timestamps + [t],
                                   scores + [score(History(ys, c), utt, t)[tok]], c, utt, score)
  {
    assert (ys + [tok])[c..] == ys[c..] + [tok];
    assert ys[..c] + ys[c..] == ys;
    AppendKeepsScores(ys[..c], ys[c..], timestamps, scores, c, utt, score, tok, t);
  }
}

=== FILE: greedy.dfy ===
/** `greedy_search_batch`: one path per utterance, at most one token per frame. */
module Greedy {
  import opened Wrappers
  import opened Decoding
  import opened Packing

  /** The running state of one utterance: tokens (context prefix included),
      the frame of each emitted token and its log-prob. */
  datatype GreedyPath = GreedyPath(ys: seq<int>, timestamps: seq<nat>, scores: seq<real>)

  /** `argmax`: the first position holding the largest value. */
  function ArgMax(s: seq<real>): (k: nat)
    requires |s| > 0
    ensures k < |s|
    ensures forall j :: 0 <= j < |s| ==> s[j] <= s[k]
    ensures forall j :: 0 <= j < k ==> s[j] < s[k]
  {
    if |s| == 1 then 0
    else
      var k := ArgMax(s[..|s| - 1]);
      assert forall j :: 0 <= j < |s| - 1 ==> s[..|s| - 1][j] == s[j];
      if s[|s| - 1] > s[k] then |s| - 1 else k
  }

  /** The initial history: `contextSize - 1` padding entries of -1, then blank. */
  function GreedyStart(cfg: Config): (p: GreedyPath)
    requires cfg.contextSize >= 1
    ensures |p.ys| == cfg.contextSize && p.ys[cfg.contextSize - 1] == cfg.blankId
    ensures forall k :: 0 <= k < cfg.contextSize - 1 ==> p.ys[k] == -1
    ensures p.timestamps == [] && p.scores == []
  {
    GreedyPath(seq(cfg.contextSize - 1, _ => -1) + [cfg.blankId], [], [])
  }

  /** The decoder's promises about one path after `frames` frames. */
  ghost predicate PathInvariant(p: GreedyPath, cfg: Config, frames: nat) {
    && |p.ys| >= cfg.contextSize
    && WellFormedOutput(p.ys[cfg.contextSize..], p.timestamps, p.scores, cfg, frames)
  }

  /** One frame of one utterance: append the arg-max token, its frame and its
      log-prob, unless the arg-max is blank or unknown. */
  function GreedyStep(p: GreedyPath, utt: nat, t: nat, cfg: Config, score: Scorer): (q: GreedyPath)
    requires cfg.vocabSize >= 1 && ValidScorer(score, cfg.vocabSize)
    ensures |p.ys| <= |q.ys| <= |p.ys| + 1
  {
    var lp := score(History(p.ys, cfg.contextSize), utt, t);
    var v := ArgMax(lp);
    if IsSentinel(v, cfg) then p
    else GreedyPath(p.ys + [v], p.timestamps + [t], p.scores + [lp[v]])
  }

  /** A frame either keeps the path, when the first best token (`ArgMax`,
      as `argmax` picks it) is blank or unknown, or appends exactly that
      token with frame `t` and its log-prob. */
  lemma GreedyStepSpec(p: GreedyPath, utt: nat, t: nat, cfg: Config, score: Scorer)
    requires cfg.vocabSize >= 1 && ValidScorer(score, cfg.vocabSize)
    ensures var lp := score(History(p.ys, cfg.contextSize), utt, t);
      var q := GreedyStep(p, utt, t, cfg, score);
      || (q == p && IsSentinel(ArgMax(lp), cfg))
      || (&& |q.ys| == |p.ys| + 1 && q.ys[..|p.ys|] == p.ys
          && q.ys[|p.ys|] == ArgMax(lp) && !IsSentinel(q.ys[|p.ys|], cfg)
          && 0 <= q.ys[|p.ys|] < |lp|
          && (forall j :: 0 <= j < |lp| ==> lp[j] <= lp[q.ys[|p.ys|]])
          && q.timestamps == p.timestamps + [t]
          && q.scores == p.scores + [lp[q.ys[|p.ys|]]])
  {
    var lp := score(History(p.ys, cfg.contextSize), utt, t);
    var v := ArgMax(lp);
    if !IsSentinel(v, cfg) {
      assert (p.ys + [v])[..|p.ys|] == p.ys;
    }
  }

  /** The path of utterance `utt` after its first `frames` frames. */
  function GreedyUpTo(utt: nat, frames: nat, cfg: Config, score: Scorer): (p: GreedyPath)
    requires cfg.contextSize >= 1 && cfg.vocabSize >= 1 && ValidScorer(score, cfg.vocabSize)
    ensures PathInvariant(p, cfg, frames)
    ensures p.ys[..cfg.contextSize] == GreedyStart(cfg).ys
    ensures |p.timestamps| <= frames
  {
    if frames == 0 then GreedyStart(cfg)
    else
      var p := GreedyUpTo(utt, frames - 1, cfg, score);
      var q := GreedyStep(p, utt, frames - 1, cfg, score);
      GreedyStepSpec(p, utt, frames - 1, cfg, score);
      StepKeepsInvariant(p, q, frames - 1, cfg);
      q
  }

  lemma StepKeepsInvariant(p: GreedyPath, q: GreedyPath, t: nat, cfg: Config)
    requires PathInvariant(p, cfg, t) && |p.timestamps| <= t
    requires
      || q == p
      || (&& |q.ys| == |p.ys| + 1 && q.ys[..|p.ys|] == p.ys
          && !IsSentinel(q.ys[|p.ys|], cfg)
          && q.timestamps == p.timestamps + [t]
          && |q.scores| == |p.scores| + 1)
    ensures PathInvariant(q, cfg, t + 1)
    ensures q.ys[..cfg.contextSize] == p.ys[..cfg.contextSize]
    ensures |q.timestamps| <= t + 1
  {
    var c := cfg.contextSize;
    if q != p {
      assert q.ys[c..] == p.ys[c..] + [q.ys[|p.ys|]] by {
        assert q.ys == p.ys + [q.ys[|p.ys|]];
      }
      assert q.ys[..c] == q.ys[..|p.ys|][..c];
    }
  }

  /** How many frames of an utterance of `length` frames lie before frame `t`. */
  function FramesSeen(length: int, t: nat): nat {
    if length < 0 then 0 else if length <= t then length else t
  }

  /** Tokens of a path with the context prefix stripped (`h[context_size:]`). */
  function Emitted(p: GreedyPath, cfg: Config): (r: seq<int>)
    requires |p.ys| >= cfg.contextSize
    ensures cfg.contextSize + |r| == |p.ys| && p.ys == p.ys[..cfg.contextSize] + r
  {
    p.ys[cfg.contextSize..]
  }

  /** One frame of the batch: a single scorer call for the `|utts|` running
      utterances (sorted positions 0 .. |utts|-1), then the appends; retired
      positions are left alone. */
  method GreedyFrame(hyps: seq<GreedyPath>, utts: seq<nat>, t: nat, cfg: Config, score: Scorer)
    returns (next: seq<GreedyPath>)
    requires cfg.vocabSize >= 1 && ValidScorer(score, cfg.vocabSize)
    requires |utts| <= |hyps|
    ensures |next| == |hyps|
    ensures forall j :: 0 <= j < |utts| ==> next[j] == GreedyStep(hyps[j], utts[j], t, cfg, score)
    ensures forall j :: |utts| <= j < |hyps| ==> next[j] == hyps[j]
  {
    var batchSize := |utts|;
    // The one joiner call of this frame: a log-prob row per running utterance.
    var logProbs := seq(batchSize, i requires 0 <= i < batchSize =>
      score(History(hyps[i].ys, cfg.contextSize), utts[i], t));
    next := hyps;
    var i := 0;
    while i < batchSize
      invariant 0 <= i <= batchSize
      invariant |next| == |hyps|
      invariant forall j :: 0 <= j < i ==> next[j] == GreedyStep(hyps[j], utts[j], t, cfg, score)
      invariant forall j :: i <= j < |hyps| ==> next[j] == hyps[j]
    {
      var lp := logProbs[i];
      assert lp == score(History(hyps[i].ys, cfg.contextSize), utts[i], t);
      var v := ArgMax(lp);
      if !IsSentinel(v, cfg) {
        next := next[i := GreedyPath(hyps[i].ys + [v], hyps[i].timestamps + [t], hyps[i].scores + [lp[v]])];
      }
      i := i + 1;
    }
  }

  /** The frame loop over the packed schedule: afterwards sorted position `k`
      holds the complete path of utterance `sorted[k]`. */
  method GreedyFrames(lengths: seq<int>, sorted: seq<nat>, batchSizes: seq<nat>, cfg: Config, score: Scorer)
    returns (hyps: seq<GreedyPath>)
    requires cfg.contextSize >= 1 && cfg.vocabSize >= 1 && ValidScorer(score, cfg.vocabSize)
    requires Schedule(lengths, sorted, batchSizes)
    ensures |hyps| == |sorted|
    ensures forall k :: 0 <= k < |sorted| ==>
      hyps[k] == GreedyUpTo(sorted[k], lengths[sorted[k]], cfg, score)
  {
    hyps := seq(|sorted|, _ => GreedyStart(cfg));
    StartPaths(lengths, sorted, hyps, cfg, score);
    var t := 0;
    while t < |batchSizes|
      invariant 0 <= t <= |batchSizes|
      invariant PathsAt(hyps, lengths, sorted, t, cfg, score)
    {
      var before := hyps;
      hyps := GreedyFrame(hyps, sorted[..batchSizes[t]], t, cfg, score);
      FrameAdvance(lengths, sorted, batchSizes, t, before, hyps, cfg, score);
      t := t + 1;
    }
    FinalPaths(lengths, sorted, batchSizes, hyps, cfg, score);
  }

  /** Sorted position `i` holds its utterance's path after the frames of it
      that lie before frame `t`. */
  ghost predicate PathsAt(hyps: seq<GreedyPath>, lengths: seq<int>, sorted: seq<nat>, t: nat, cfg: Config, score: Scorer)
    requires cfg.contextSize >= 1 && cfg.vocabSize >= 1 && ValidScorer(score, cfg.vocabSize)
    requires forall k :: 0 <= k < |sorted| ==> sorted[k] < |lengths|
  {
    && |hyps| == |sorted|
    && forall i :: 0 <= i < |sorted| ==>
         hyps[i] == GreedyUpTo(sorted[i], FramesSeen(lengths[sorted[i]], t), cfg, score)
  }

  lemma StartPaths(lengths: seq<int>, sorted: seq<nat>, hyps: seq<GreedyPath>, cfg: Config, score: Scorer)
    requires cfg.contextSize >= 1 && cfg.vocabSize >= 1 && ValidScorer(score, cfg.vocabSize)
    requires forall k :: 0 <= k < |sorted| ==> sorted[k] < |lengths|
    requires |hyps| == |sorted| && forall i :: 0 <= i < |hyps| ==> hyps[i] == GreedyStart(cfg)
    ensures PathsAt(hyps, lengths, sorted, 0, cfg, score)
  {
  }

  lemma FinalPaths(lengths: seq<int>, sorted: seq<nat>, batchSizes: seq<nat>, hyps: seq<GreedyPath>,
                   cfg: Config, score: Scorer)
    requires cfg.contextSize >= 1 && cfg.vocabSize >= 1 && ValidScorer(score, cfg.vocabSize)
    requires Schedule(lengths, sorted, batchSizes)
    requires PathsAt(hyps, lengths, sorted, |batchSizes|, cfg, score)
    ensures |hyps| == |sorted|
    ensures forall k :: 0 <= k < |sorted| ==> hyps[k] == GreedyUpTo(sorted[k], lengths[sorted[k]], cfg, score)
  {
    forall k | 0 <= k < |sorted| ensures FramesSeen(lengths[sorted[k]], |batchSizes|) == lengths[sorted[k]] {
      assert lengths[sorted[k]] <= |batchSizes|;
    }
  }

  lemma FrameAdvance(lengths: seq<int>, sorted: seq<nat>, batchSizes: seq<nat>, t: nat,
                     before: seq<GreedyPath>, after: seq<GreedyPath>, cfg: Config, score: Scorer)
    requires cfg.contextSize >= 1 && cfg.vocabSize >= 1 && ValidScorer(score, cfg.vocabSize)
    requires Schedule(lengths, sorted, batchSizes) && t < |batchSizes|
    requires |before| == |after| == |sorted|
    requires forall i :: 0 <= i < |sorted| ==>
      before[i] == GreedyUpTo(sorted[i], FramesSeen(lengths[sorted[i]], t), cfg, score)
    requires forall j :: 0 <= j < batchSizes[t] ==>
      after[j] == GreedyStep(before[j], sorted[..batchSizes[t]][j], t, cfg, score)
    requires forall j :: batchSizes[t] <= j < |before| ==> after[j] == before[j]
    ensures forall i :: 0 <= i < |sorted| ==>
      after[i] == GreedyUpTo(sorted[i], FramesSeen(lengths[sorted[i]], t + 1), cfg, score)
  {
    forall j | 0 <= j < |sorted|
      ensures after[j] == GreedyUpTo(sorted[j], FramesSeen(lengths[sorted[j]], t + 1), cfg, score)
    {
      var running := j < batchSizes[t];
      if running {
        assert sorted[..batchSizes[t]][j] == sorted[j];
      }
      PathAdvance(sorted[j], lengths[sorted[j]], t, before[j], after[j], running, cfg, score);
    }
  }

  /** One utterance across frame `t`: it takes a step while it is running and
      stays put once it has retired. */
  lemma PathAdvance(utt: nat, length: int, t: nat, before: GreedyPath, after: GreedyPath, running: bool,
                    cfg: Config, score: Scorer)
    requires cfg.contextSize >= 1 && cfg.vocabSize >= 1 && ValidScorer(score, cfg.vocabSize)
    requires running <==> length > t
    requires before == GreedyUpTo(utt, FramesSeen(length, t), cfg, score)
    requires running ==> after == GreedyStep(before, utt, t, cfg, score)
    requires !running ==> after == before
    ensures after == GreedyUpTo(utt, FramesSeen(length, t + 1), cfg, score)
  {
    if running {
      assert FramesSeen(length, t) == t;
      PathRuns(utt, t, before, after, cfg, score);
      assert FramesSeen(length, t + 1) == t + 1;
    } else {
      assert FramesSeen(length, t + 1) == FramesSeen(length, t);
    }
  }

  lemma PathRuns(utt: nat, t: nat, before: GreedyPath, after: GreedyPath, cfg: Config, score: Scorer)
    requires cfg.contextSize >= 1 && cfg.vocabSize >= 1 && ValidScorer(score, cfg.vocabSize)
    requires before == GreedyUpTo(utt, t, cfg, score)
    requires after == GreedyStep(before, utt, t, cfg, score)
    ensures after == GreedyUpTo(utt, t + 1, cfg, score)
  {
  }

  /** The batched decoder.  Every utterance's output equals its own
      single-utterance decode, whatever the batch and the sort order. */
  method GreedySearchBatch(lengths: seq<int>, cfg: Config, score: Scorer) returns (res: Result<DecodingResults, DecodeError>)
    requires cfg.contextSize >= 1 && cfg.vocabSize >= 1 && ValidScorer(score, cfg.vocabSize)
    ensures res.Err? <==> !ValidLengths(lengths)
    ensures res.Err? ==> CheckLengths(lengths) == Some(res.error)
    ensures res.Ok? ==>
      && |res.value.hyps| == |lengths|
      && |res.value.timestamps| == |lengths|
      && |res.value.scores| == |lengths|
      && forall i :: 0 <= i < |lengths| ==>
        (res.value.hyps[i], res.value.timestamps[i], res.value.scores[i]) == GreedyOutput(i, lengths[i], cfg, score)
    ensures res.Ok? ==> forall i :: 0 <= i < |lengths| ==>
      WellFormedOutput(res.value.hyps[i], res.value.timestamps[i], res.value.scores[i], cfg, lengths[i])
    ensures res.Ok? ==> forall i :: 0 <= i < |lengths| ==>
      ScoresAreTokenLogProbs(GreedyStart(cfg).ys, res.value.hyps[i], res.value.timestamps[i], res.value.scores[i],
                             cfg.contextSize, i, score)
  {
    var check := CheckLengths(lengths);
    if check.Some? {
      return Err(check.value);
    }
    var ans := GreedyDecodeSorted(lengths, cfg, score);
    res := Ok(Collect(ans));
  }

  /** Packs the batch, runs the frame loop and returns every utterance's
      output in caller order. */
  method GreedyDecodeSorted(lengths: seq<int>, cfg: Config, score: Scorer)
    returns (ans: seq<(seq<int>, seq<nat>, seq<real>)>)
    requires cfg.contextSize >= 1 && cfg.vocabSize >= 1 && ValidScorer(score, cfg.vocabSize)
    requires ValidLengths(lengths)
    ensures |ans| == |lengths|
    ensures forall i :: 0 <= i < |lengths| ==> ans[i] == GreedyOutput(i, lengths[i], cfg, score)
  {
    var n := |lengths|;
    var pk := Pack(lengths);
    PackSchedule(lengths);
    var hyps := GreedyFrames(lengths, pk.sortedIndices, pk.batchSizes, cfg, score);
    var outputs := seq(n, k requires 0 <= k < n =>
      (Emitted(hyps[k], cfg), hyps[k].timestamps, hyps[k].scores));
    ans := Unsort(outputs, pk);
    UnsortedOutputs(lengths, pk, ans, cfg, score);
  }

  /** The emitted tokens, timestamps and scores of one utterance decoded alone. */
  function GreedyOutput(utt: nat, frames: nat, cfg: Config, score: Scorer): (r: (seq<int>, seq<nat>, seq<real>))
    requires cfg.contextSize >= 1 && cfg.vocabSize >= 1 && ValidScorer(score, cfg.vocabSize)
    ensures WellFormedOutput(r.0, r.1, r.2, cfg, frames)
    ensures ScoresAreTokenLogProbs(GreedyStart(cfg).ys, r.0, r.1, r.2, cfg.contextSize, utt, score)
  {
    var p := GreedyUpTo(utt, frames, cfg, score);
    GreedyUpToScores(utt, frames, cfg, score);
    (Emitted(p, cfg), p.timestamps, p.scores)
  }

  /** Every score on a path is the log-prob the scorer gave its token, after
      the path's own context prefix and the tokens before it. */
  ghost predicate PathScores(p: GreedyPath, utt: nat, cfg: Config, score: Scorer) {
    && |p.ys| >= cfg.contextSize
    && ScoresAreTokenLogProbs(p.ys[..cfg.contextSize], p.ys[cfg.contextSize..], p.timestamps, p.scores,
                              cfg.contextSize, utt, score)
  }

  /** A frame appends the log-prob of the token it appends, read from the
      scorer call on the path's own history. */
  lemma GreedyStepScores(p: GreedyPath, utt: nat, t: nat, cfg: Config, score: Scorer)
    requires cfg.vocabSize >= 1 && ValidScorer(score, cfg.vocabSize)
    requires PathScores(p, utt, cfg, score)
    ensures PathScores(GreedyStep(p, utt, t, cfg, score), utt, cfg, score)
  {
    var c := cfg.contextSize;
    var q := GreedyStep(p, utt, t, cfg, score);
    GreedyStepSpec(p, utt, t, cfg, score);
    if q != p {
      var tok := q.ys[|p.ys|];
      assert q.ys == p.ys + [tok];
      ExtendScores(p.ys, p.timestamps, p.scores, c, utt, score, tok, t);
    }
  }

  /** The path of one utterance after any number of frames carries, as score
      `k`, the log-prob of token `k` (see ScoresAreTokenLogProbs). */
  lemma {:induction false} GreedyUpToScores(utt: nat, frames: nat, cfg: Config, score: Scorer)
    requires cfg.contextSize >= 1 && cfg.vocabSize >= 1 && ValidScorer(score, cfg.vocabSize)
    ensures PathScores(GreedyUpTo(utt, frames, cfg, score), utt, cfg, score)
  {
    if frames > 0 {
      GreedyUpToScores(utt, frames - 1, cfg, score);
      GreedyStepScores(GreedyUpTo(utt, frames - 1, cfg, score), utt, frames - 1, cfg, score);
    }
  }

  lemma UnsortedOutputs(lengths: seq<int>, pk: Packed, ans: seq<(seq<int>, seq<nat>, seq<real>)>, cfg: Config, score: Scorer)
    requires cfg.contextSize >= 1 && cfg.vocabSize >= 1 && ValidScorer(score, cfg.vocabSize)
    requires ValidLengths(lengths) && pk == Pack(lengths)
    requires |ans| == |lengths|
    requires forall k :: 0 <= k < |lengths| ==>
      ans[pk.sortedIndices[k]] == GreedyOutput(pk.sortedIndices[k], lengths[pk.sortedIndices[k]], cfg, score)
    ensures forall i :: 0 <= i < |lengths| ==> ans[i] == GreedyOutput(i, lengths[i], cfg, score)
  {
    forall i | 0 <= i < |lengths| ensures ans[i] == GreedyOutput(i, lengths[i], cfg, score) {
      var k := pk.unsortedIndices[i];
      assert pk.sortedIndices[k] == i;
    }
  }
}

=== FILE: hypothesis.dfy ===
/** Decoding paths and the key-unique collection that holds them.

    A `HypothesisList` is the Python dict from key to hypothesis, kept as the
    sequence of its values in insertion order (Python dicts iterate in that order,
    and the order decides ties in `GetMostProbable` and the flat candidate order of
    the beam step).  Keys are the token sequences `ys`; `TokenKey.KeyInjective`
    shows that keying on the joined string is the same thing. */
module Hypotheses {
  import opened Wrappers
  import opened Sorting

  /** One decoding path: tokens `ys` (context prefix included), the log-prob of
      each emitted token, the path log-prob, and the frame of each emitted token. */
  datatype Hypothesis = Hypothesis(ys: seq<int>, scores: seq<real>, logProb: real, timestamp: seq<nat>)

  /** The parts of a hypothesis that a merge never changes. */
  datatype Shape = Shape(ys: seq<int>, scores: seq<real>, timestamp: seq<nat>)

  type HypothesisList = seq<Hypothesis>

  function ShapeOf(h: Hypothesis): Shape {
    Shape(h.ys, h.scores, h.timestamp)
  }

  function Keys(l: HypothesisList): set<seq<int>> {
    set h | h in l :: h.ys
  }

  function Shapes(l: HypothesisList): set<Shape> {
    set h | h in l :: ShapeOf(h)
  }

  /** The dict invariant: no key is stored twice.  Stated entry by entry
      from the front, the way `add` and `remove` walk the list. */
  ghost predicate KeysUnique(l: HypothesisList)
    decreases |l|
  {
    |l| == 0 || (l[0].ys !in Keys(l[1..]) && KeysUnique(l[1..]))
  }

  /** The same invariant pair by pair: distinct positions hold distinct keys. */
  lemma {:induction false} KeysUniquePairs(l: HypothesisList)
    ensures KeysUnique(l) <==> forall i, j :: 0 <= i < j < |l| ==> l[i].ys != l[j].ys
    decreases |l|
  {
    if |l| > 0 {
      var t := l[1..];
      KeysUniquePairs(t);
      if KeysUnique(l) {
        forall i, j | 0 <= i < j < |l| ensures l[i].ys != l[j].ys {
          assert l[j] == t[j - 1];
          if i == 0 {
            assert l[j] in t;
          } else {
            assert l[i] == t[i - 1];
          }
        }
      }
      if forall i, j :: 0 <= i < j < |l| ==> l[i].ys != l[j].ys {
        forall i, j | 0 <= i < j < |t| ensures t[i].ys != t[j].ys {
          assert t[i] == l[i + 1] && t[j] == l[j + 1];
        }
        forall x | x in t ensures x.ys != l[0].ys {
          var j :| 0 <= j < |t| && t[j] == x;
          assert l[j + 1] == x;
        }
      }
    }
  }

  lemma KeysUniqueDistinct(l: HypothesisList)
    requires KeysUnique(l)
    ensures Distinct(l)
  {
    KeysUniquePairs(l);
  }

  lemma KeysUniqueTail(l: HypothesisList)
    requires KeysUnique(l) && |l| > 0
    ensures KeysUnique(l[1..])
    ensures l[0].ys !in Keys(l[1..])
  {
  }

  /** The list `l` after `add` has merged `h` into the entry with its key. */
  ghost predicate MergedInto(r: HypothesisList, l: HypothesisList, h: Hypothesis, lse: (real, real) -> real) {
    |r| == |l| &&
    forall i :: 0 <= i < |l| ==>
      r[i] == (if l[i].ys == h.ys then l[i].(logProb := lse(l[i].logProb, h.logProb)) else l[i])
  }

  /** `add`: a new key is appended; an existing key keeps its tokens, scores and
      timestamps, and only its log-prob becomes `lse(old, new)`. */
  function Add(l: HypothesisList, h: Hypothesis, lse: (real, real) -> real): (r: HypothesisList)
    ensures 1 <= |r| && |l| <= |r| <= |l| + 1
  {
    if |l| == 0 then
      [h]
    else if l[0].ys == h.ys then
      [l[0].(logProb := lse(l[0].logProb, h.logProb))] + l[1..]
    else
      [l[0]] + Add(l[1..], h, lse)
  }

  /** `add` keeps keys unique, stores exactly one more key at most, and either
      appends `h` (new key) or merges it into the entry with its key. */
  lemma {:induction false} AddSpec(l: HypothesisList, h: Hypothesis, lse: (real, real) -> real)
    requires KeysUnique(l)
    ensures var r := Add(l, h, lse);
      && KeysUnique(r)
      && Keys(r) == Keys(l) + {h.ys}
      && Shapes(r) <= Shapes(l) + {ShapeOf(h)}
      && (h.ys !in Keys(l) ==> r == l + [h])
      && (h.ys in Keys(l) ==> MergedInto(r, l, h, lse))
    decreases |l|
  {
    var r := Add(l, h, lse);
    if |l| == 0 {
      assert r == [h] && l + [h] == [h];
      assert forall x :: x in r <==> x == h;
    } else if l[0].ys == h.ys {
      AddAtHead(l, h, lse, r);
    } else {
      KeysUniqueTail(l);
      var rest := Add(l[1..], h, lse);
      AddSpec(l[1..], h, lse);
      assert l[0].ys !in Keys(rest);
      ConsUnique(l[0], rest);
      ConsKeysShapes(l, h, rest, r);
      AddBehindHead(l, h, lse, rest, r);
    }
  }

  lemma AddAtHead(l: HypothesisList, h: Hypothesis, lse: (real, real) -> real, r: HypothesisList)
    requires KeysUnique(l) && |l| > 0 && l[0].ys == h.ys
    requires r == [l[0].(logProb := lse(l[0].logProb, h.logProb))] + l[1..]
    ensures KeysUnique(r)
    ensures Keys(r) == Keys(l) + {h.ys}
    ensures Shapes(r) <= Shapes(l) + {ShapeOf(h)}
    ensures h.ys in Keys(l) && MergedInto(r, l, h, lse)
  {
    KeysUniqueTail(l);
    assert l == [l[0]] + l[1..];
    assert forall i :: 0 <= i < |l| ==> r[i].ys == l[i].ys;
    assert forall x :: x in r <==> x == r[0] || x in l[1..];
    assert forall x :: x in l <==> x == l[0] || x in l[1..];
    assert ShapeOf(r[0]) == ShapeOf(l[0]);
    assert r[1..] == l[1..];
    assert forall i :: 1 <= i < |l| ==> l[i].ys != h.ys;
  }

  lemma ConsSets(x: Hypothesis, rest: HypothesisList)
    ensures Keys([x] + rest) == {x.ys} + Keys(rest)
    ensures Shapes([x] + rest) == {ShapeOf(x)} + Shapes(rest)
  {
    assert forall y :: y in [x] + rest <==> y == x || y in rest;
  }

  lemma AddBehindHead(l: HypothesisList, h: Hypothesis, lse: (real, real) -> real, rest: HypothesisList, r: HypothesisList)
    requires |l| > 0 && l[0].ys != h.ys
    requires h.ys !in Keys(l[1..]) ==> rest == l[1..] + [h]
    requires h.ys in Keys(l[1..]) ==> MergedInto(rest, l[1..], h, lse)
    requires r == [l[0]] + rest
    ensures h.ys !in Keys(l) ==> r == l + [h]
    ensures h.ys in Keys(l) ==> MergedInto(r, l, h, lse)
  {
    assert l == [l[0]] + l[1..];
    ConsSets(l[0], l[1..]);
    if h.ys in Keys(l[1..]) {
      MergedCons(l, h, lse, rest, r);
    } else {
      AppendAssoc([l[0]], l[1..], [h]);
    }
  }

  lemma ConsKeysShapes(l: HypothesisList, h: Hypothesis, rest: HypothesisList, r: HypothesisList)
    requires |l| > 0
    requires Keys(rest) == Keys(l[1..]) + {h.ys}
    requires Shapes(rest) <= Shapes(l[1..]) + {ShapeOf(h)}
    requires r == [l[0]] + rest
    ensures Keys(r) == Keys(l) + {h.ys}
    ensures Shapes(r) <= Shapes(l) + {ShapeOf(h)}
  {
    assert l == [l[0]] + l[1..];
    ConsSets(l[0], rest);
    ConsSets(l[0], l[1..]);
  }

  lemma ConsUnique(x: Hypothesis, rest: HypothesisList)
    requires KeysUnique(rest) && x.ys !in Keys(rest)
    ensures KeysUnique([x] + rest)
  {
    assert ([x] + rest)[1..] == rest;
  }

  lemma MergedCons(l: HypothesisList, h: Hypothesis, lse: (real, real) -> real, rest: HypothesisList, r: HypothesisList)
    requires |l| > 0 && l[0].ys != h.ys
    requires MergedInto(rest, l[1..], h, lse)
    requires r == [l[0]] + rest
    ensures MergedInto(r, l, h, lse)
  {
    forall i | 0 <= i < |l| ensures r[i] == (if l[i].ys == h.ys then l[i].(logProb := lse(l[i].logProb, h.logProb)) else l[i]) {
      if i > 0 {
        assert r[i] == rest[i - 1] && l[i] == l[1..][i - 1];
      }
    }
  }

  /** `self._data.get(key)`: the entry stored under `y`, if any. */
  function Lookup(l: HypothesisList, y: seq<int>): (r: Option<Hypothesis>)
    ensures r.Some? ==> r.value in l && r.value.ys == y
    ensures r.None? ==> forall h :: h in l ==> h.ys != y
    decreases |l|
  {
    if |l| == 0 then None
    else if l[0].ys == y then Some(l[0])
    else Lookup(l[1..], y)
  }

  /** One `add` seen from a single key: a first hypothesis is stored as it is;
      a later one only merges its log-prob into the stored entry with `lse`. */
  function MergeEntry(stored: Option<Hypothesis>, h: Hypothesis, lse: (real, real) -> real): Hypothesis {
    if stored.None? then h else stored.value.(logProb := lse(stored.value.logProb, h.logProb))
  }

  /** Reference for a run of `add` calls, one key at a time: the entry stored
      under `y` after adding `hs` in order to a list holding `stored` under `y`.
      It keeps the tokens, scores and timestamps of the first hypothesis with
      key `y`, and its log-prob is the left fold of `lse` over theirs. */
  function FoldKey(stored: Option<Hypothesis>, hs: seq<Hypothesis>, y: seq<int>, lse: (real, real) -> real): Option<Hypothesis>
    decreases |hs|
  {
    if |hs| == 0 then stored
    else FoldKey(if hs[0].ys == y then Some(MergeEntry(stored, hs[0], lse)) else stored, hs[1..], y, lse)
  }

  /** `add` changes only the entry under `h`'s key, and that one as
      `MergeEntry` says. */
  lemma {:induction false} AddLookup(l: HypothesisList, h: Hypothesis, y: seq<int>, lse: (real, real) -> real)
    ensures Lookup(Add(l, h, lse), y)
      == if h.ys == y then Some(MergeEntry(Lookup(l, y), h, lse)) else Lookup(l, y)
    decreases |l|
  {
    var r := Add(l, h, lse);
    if |l| == 0 {
      assert r == [h];
      assert Lookup(r, y) == if h.ys == y then Some(h) else Lookup(r[1..], y);
      assert r[1..] == [];
    } else if l[0].ys == h.ys {
      assert r[1..] == l[1..];
    } else if l[0].ys != y {
      assert r[1..] == Add(l[1..], h, lse);
      AddLookup(l[1..], h, y, lse);
    }
  }

  /** Adding `hs` one by one stores under every key exactly what the per-key
      reference `FoldKey` says. */
  lemma {:induction false} AddAllLookup(l: HypothesisList, hs: seq<Hypothesis>, y: seq<int>, lse: (real, real) -> real)
    ensures Lookup(AddAll(l, hs, lse), y) == FoldKey(Lookup(l, y), hs, y, lse)
    decreases |hs|
  {
    if |hs| > 0 {
      AddLookup(l, hs[0], y, lse);
      AddAllLookup(Add(l, hs[0], lse), hs[1..], y, lse);
    }
  }

  /** Adds each hypothesis of `hs` in turn. */
  function AddAll(l: HypothesisList, hs: seq<Hypothesis>, lse: (real, real) -> real): (r: HypothesisList)
    ensures |l| <= |r| <= |l| + |hs|
    ensures |hs| > 0 ==> |r| >= 1
    decreases |hs|
  {
    if |hs| == 0 then l
    else AddAll(Add(l, hs[0], lse), hs[1..], lse)
  }

  /** Adding a sequence keeps keys unique and stores exactly the keys of both;
      every stored entry keeps the tokens, scores and timestamps of one of
      them, and the entry under each key is the per-key fold `FoldKey`. */
  lemma AddAllSpec(l: HypothesisList, hs: seq<Hypothesis>, lse: (real, real) -> real)
    requires KeysUnique(l)
    ensures var r := AddAll(l, hs, lse);
      && KeysUnique(r)
      && Keys(r) == Keys(l) + Keys(hs)
      && Shapes(r) <= Shapes(l) + Shapes(hs)
      && forall y :: Lookup(r, y) == FoldKey(Lookup(l, y), hs, y, lse)
  {
    AddAllKeys(l, hs, lse);
    AddAllShapes(l, hs, lse);
    forall y ensures Lookup(AddAll(l, hs, lse), y) == FoldKey(Lookup(l, y), hs, y, lse) {
      AddAllLookup(l, hs, y, lse);
    }
  }

  lemma {:induction false} AddAllKeys(l: HypothesisList, hs: seq<Hypothesis>, lse: (real, real) -> real)
    requires KeysUnique(l)
    ensures KeysUnique(AddAll(l, hs, lse)) && Keys(AddAll(l, hs, lse)) == Keys(l) + Keys(hs)
    decreases |hs|
  {
    if |hs| > 0 {
      assert hs == [hs[0]] + hs[1..];
      ConsSets(hs[0], hs[1..]);
      var l' := Add(l, hs[0], lse);
      AddSpec(l, hs[0], lse);
      AddAllKeys(l', hs[1..], lse);
      assert AddAll(l, hs, lse) == AddAll(l', hs[1..], lse);
    }
  }

  lemma {:induction false} AddAllShapes(l: HypothesisList, hs: seq<Hypothesis>, lse: (real, real) -> real)
    requires KeysUnique(l)
    ensures Shapes(AddAll(l, hs, lse)) <= Shapes(l) + Shapes(hs)
    decreases |hs|
  {
    if |hs| > 0 {
      assert hs == [hs[0]] + hs[1..];
      ConsSets(hs[0], hs[1..]);
      var l' := Add(l, hs[0], lse);
      AddSpec(l, hs[0], lse);
      AddAllShapes(l', hs[1..], lse);
      assert AddAll(l, hs, lse) == AddAll(l', hs[1..], lse);
    }
  }

  /** When no key of `hs` is already stored or repeated, `add` never merges. */
  lemma {:induction false} AddAllFresh(l: HypothesisList, hs: seq<Hypothesis>, lse: (real, real) -> real)
    requires KeysUnique(l + hs)
    ensures KeysUnique(l)
    ensures AddAll(l, hs, lse) == l + hs
    decreases |hs|
  {
    KeysUniquePairs(l + hs);
    KeysUniquePairs(l);
    assert forall i, j :: 0 <= i < j < |l| ==> (l + hs)[i] == l[i] && (l + hs)[j] == l[j];
    if |hs| > 0 {
      assert hs[0].ys !in Keys(l) by {
        forall x | x in l ensures x.ys != hs[0].ys {
          var i :| 0 <= i < |l| && l[i] == x;
          assert (l + hs)[i] == x && (l + hs)[|l|] == hs[0];
        }
      }
      assert l + [hs[0]] + hs[1..] == l + hs;
      AddSpec(l, hs[0], lse);
      AddAllFresh(l + [hs[0]], hs[1..], lse);
    }
  }

  /** `filter`: the source adds every hypothesis above the threshold to a fresh
      list, so the result is exactly those hypotheses; no merge can happen. */
  function Filter(l: HypothesisList, threshold: real, lse: (real, real) -> real): (r: HypothesisList)
    requires KeysUnique(l)
    ensures KeysUnique(r)
    ensures forall h :: h in r <==> h in l && h.logProb > threshold
  {
    FilterInto([], l, threshold, lse)
  }

  function FilterInto(acc: HypothesisList, rest: HypothesisList, threshold: real, lse: (real, real) -> real): (r: HypothesisList)
    requires KeysUnique(acc) && KeysUnique(rest)
    requires Keys(acc) !! Keys(rest)
    ensures KeysUnique(r)
    ensures forall h :: h in r <==> h in acc || (h in rest && h.logProb > threshold)
    decreases |rest|
  {
    if |rest| == 0 then acc
    else
      KeysUniqueTail(rest);
      assert rest == [rest[0]] + rest[1..];
      assert rest[0].ys !in Keys(acc);
      AddSpec(acc, rest[0], lse);
      var acc' := if rest[0].logProb > threshold then Add(acc, rest[0], lse) else acc;
      assert Keys(acc') <= Keys(acc) + {rest[0].ys};
      FilterInto(acc', rest[1..], threshold, lse)
  }

  /** `[h for h in l if h.logProb > threshold]`: the entries above the
      threshold, in their stored order. */
  function Above(l: HypothesisList, threshold: real): HypothesisList
    decreases |l|
  {
    if |l| == 0 then []
    else (if l[0].logProb > threshold then [l[0]] else []) + Above(l[1..], threshold)
  }

  /** `filter` keeps insertion order: its result is the subsequence of the
      list above the threshold. */
  lemma FilterInOrder(l: HypothesisList, threshold: real, lse: (real, real) -> real)
    requires KeysUnique(l)
    ensures Filter(l, threshold, lse) == Above(l, threshold)
  {
    FilterIntoInOrder([], l, threshold, lse);
  }

  lemma {:induction false} FilterIntoInOrder(acc: HypothesisList, rest: HypothesisList, threshold: real,
                                             lse: (real, real) -> real)
    requires KeysUnique(acc) && KeysUnique(rest)
    requires Keys(acc) !! Keys(rest)
    ensures FilterInto(acc, rest, threshold, lse) == acc + Above(rest, threshold)
    decreases |rest|
  {
    if |rest| > 0 {
      var piece := if rest[0].logProb > threshold then [rest[0]] else [];
      var acc' := if rest[0].logProb > threshold then Add(acc, rest[0], lse) else acc;
      FilterStep(acc, rest, threshold, lse, acc');
      FilterIntoInOrder(acc', rest[1..], threshold, lse);
      assert FilterInto(acc, rest, threshold, lse) == FilterInto(acc', rest[1..], threshold, lse);
      assert Above(rest, threshold) == piece + Above(rest[1..], threshold);
      AppendAssoc(acc, piece, Above(rest[1..], threshold));
    }
  }

  lemma AppendAssoc<T>(a: seq<T>, b: seq<T>, c: seq<T>)
    ensures a + (b + c) == (a + b) + c
  {
  }

  lemma FilterStep(acc: HypothesisList, rest: HypothesisList, threshold: real, lse: (real, real) -> real,
                   acc': HypothesisList)
    requires KeysUnique(acc) && KeysUnique(rest) && Keys(acc) !! Keys(rest) && |rest| > 0
    requires acc' == if rest[0].logProb > threshold then Add(acc, rest[0], lse) else acc
    ensures acc' == acc + (if rest[0].logProb > threshold then [rest[0]] else [])
    ensures KeysUnique(acc') && KeysUnique(rest[1..]) && Keys(acc') !! Keys(rest[1..])
  {
    KeysUniqueTail(rest);
    assert rest[0] in rest;
    assert rest[0].ys !in Keys(acc);
    AddSpec(acc, rest[0], lse);
    assert Keys(rest[1..]) <= Keys(rest) by {
      forall y | y in Keys(rest[1..]) ensures y in Keys(rest) {
        var x :| x in rest[1..] && x.ys == y;
        assert x in rest;
      }
    }
  }

  /** `remove`: drops the entry whose key is `h`'s key; the source raises when
      there is none, modelled as `None`. */
  function Remove(l: HypothesisList, h: Hypothesis): (r: Option<HypothesisList>)
    requires KeysUnique(l)
    ensures r.Some? <==> h.ys in Keys(l)
    ensures r.Some? ==> |r.value| == |l| - 1 && KeysUnique(r.value)
    ensures r.Some? ==> forall x :: x in r.value <==> x in l && x.ys != h.ys
  {
    if |l| == 0 then None
    else
      KeysUniqueTail(l);
      assert l == [l[0]] + l[1..];
      if l[0].ys == h.ys then Some(l[1..])
      else
        match Remove(l[1..], h)
        case None => None
        case Some(rest) =>
          var r := [l[0]] + rest;
          assert forall x :: x in r <==> x == l[0] || x in rest;
          assert l[0].ys !in Keys(rest);
          ConsUnique(l[0], rest);
          Some(r)
  }

  /** `remove` keeps the other entries in their insertion order: the result is
      the list with the one entry of `h`'s key cut out. */
  lemma {:induction false} RemoveInOrder(l: HypothesisList, h: Hypothesis)
    requires KeysUnique(l) && h.ys in Keys(l)
    ensures Remove(l, h).Some?
    ensures exists i :: 0 <= i < |l| && l[i].ys == h.ys && Remove(l, h).value == l[..i] + l[i + 1..]
    decreases |l|
  {
    KeysUniqueTail(l);
    if l[0].ys == h.ys {
      assert l[..0] + l[1..] == l[1..];
    } else {
      var x :| x in l && x.ys == h.ys;
      assert x in l[1..] by { assert l == [l[0]] + l[1..]; }
      RemoveInOrder(l[1..], h);
      var rest := Remove(l[1..], h).value;
      var j :| 0 <= j < |l[1..]| && l[1..][j].ys == h.ys && rest == l[1..][..j] + l[1..][j + 1..];
      RemovedBehindHead(l, j, rest);
      assert Remove(l, h).value == [l[0]] + rest;
    }
  }

  /** Dropping entry `j` of the tail is dropping entry `j + 1` of the list. */
  lemma RemovedBehindHead(l: HypothesisList, j: nat, rest: HypothesisList)
    requires j < |l| - 1 && rest == l[1..][..j] + l[1..][j + 1..]
    ensures l[j + 1] == l[1..][j] && [l[0]] + rest == l[..j + 1] + l[j + 2..]
  {
    assert l[..j + 1] == [l[0]] + l[1..][..j];
    assert l[j + 2..] == l[1..][j + 1..];
    AppendAssoc([l[0]], l[1..][..j], l[1..][j + 1..]);
  }

  /** After `remove`, the stored keys are the old ones less `h`'s key. */
  lemma RemoveKeys(l: HypothesisList, h: Hypothesis)
    requires KeysUnique(l) && h.ys in Keys(l)
    ensures Remove(l, h).Some? && Keys(Remove(l, h).value) == Keys(l) - {h.ys}
  {
    var r := Remove(l, h).value;
    forall k | k in Keys(l) - {h.ys} ensures k in Keys(r) {
      var x :| x in l && x.ys == k;
      assert x in r;
    }
  }

  /** The value `get_most_probable` compares: the log-prob, divided by the
      number of tokens (context prefix included) under length normalisation. */
  function Ranking(h: Hypothesis, lengthNorm: bool): real
    requires lengthNorm ==> |h.ys| > 0
  {
    if lengthNorm then h.logProb / (|h.ys| as real) else h.logProb
  }

  ghost predicate Rankable(l: HypothesisList, lengthNorm: bool) {
    lengthNorm ==> forall i :: 0 <= i < |l| ==> |l[i].ys| > 0
  }

  /** Python's `max`: the first position whose ranking is largest. */
  function MostProbableIndex(l: HypothesisList, lengthNorm: bool): (k: nat)
    requires |l| > 0 && Rankable(l, lengthNorm)
    ensures k < |l|
    ensures forall j :: 0 <= j < |l| ==> Ranking(l[j], lengthNorm) <= Ranking(l[k], lengthNorm)
    ensures forall j :: 0 <= j < k ==> Ranking(l[j], lengthNorm) < Ranking(l[k], lengthNorm)
  {
    if |l| == 1 then 0
    else
      var k := MostProbableIndex(l[..|l| - 1], lengthNorm);
      assert l[..|l| - 1][k] == l[k];
      assert forall j :: 0 <= j < |l| - 1 ==> l[..|l| - 1][j] == l[j];
      if Ranking(l[|l| - 1], lengthNorm) > Ranking(l[k], lengthNorm) then |l| - 1 else k
  }

  /** `get_most_probable`: a stored hypothesis of largest ranking (the first
      such in insertion order); the source raises on an empty list. */
  function GetMostProbable(l: HypothesisList, lengthNorm: bool): (r: Option<Hypothesis>)
    requires Rankable(l, lengthNorm)
    ensures r.None? <==> |l| == 0
    ensures r.Some? ==> r.value in l
    ensures r.Some? ==> forall h :: h in l ==> Ranking(h, lengthNorm) <= Ranking(r.value, lengthNorm)
  {
    if |l| == 0 then None else Some(l[MostProbableIndex(l, lengthNorm)])
  }

  /** The number of entries `sorted(...)[:k]` keeps, negative `k` included. */
  function SliceCount(n: nat, k: int): (c: nat)
    ensures c <= n
  {
    if k >= 0 then Min(k, n) else if n + k > 0 then n + k else 0
  }

  function LogProbOf(h: Hypothesis): real {
    h.logProb
  }

  /** `topk`: the `k` entries of largest log-prob, in decreasing order. */
  function TopK(l: HypothesisList, k: int): (r: HypothesisList)
    ensures k >= 0 ==> |r| == Min(k, |l|)
    ensures k < 0 ==> |r| == (if |l| + k > 0 then |l| + k else 0)
  {
    TopByKey(l, SliceCount(|l|, k), LogProbOf)
  }

  /** What `topk` keeps: entries of the list, keys still unique, in
      decreasing log-prob, none of them beaten by an entry left out. */
  lemma TopKBest(l: HypothesisList, k: int)
    requires KeysUnique(l)
    ensures var r := TopK(l, k);
      && KeysUnique(r)
      && (forall h :: h in r ==> h in l)
      && NonIncreasing(r, LogProbOf)
      && (forall h, g :: h in r && g in l && g !in r ==> h.logProb >= g.logProb)
  {
    TopByKeyBest(l, SliceCount(|l|, k), LogProbOf);
    TopKEntries(l, k);
    TopKKept(l, k);
  }

  lemma TopKEntries(l: HypothesisList, k: int)
    requires KeysUnique(l) && multiset(TopK(l, k)) <= multiset(l)
    ensures KeysUnique(TopK(l, k)) && forall h :: h in TopK(l, k) ==> h in l
  {
    var r := TopK(l, k);
    SubListKeysUnique(r, l);
    forall h | h in r ensures h in l {
      assert h in multiset(r);
    }
  }

  lemma TopKKept(l: HypothesisList, k: int)
    requires var r := TopK(l, k);
      forall x, y :: x in r && y in multiset(l) - multiset(r) ==> LogProbOf(x) >= LogProbOf(y)
    ensures var r := TopK(l, k);
      forall h, g :: h in r && g in l && g !in r ==> h.logProb >= g.logProb
  {
    var r := TopK(l, k);
    forall h, g | h in r && g in l && g !in r ensures h.logProb >= g.logProb {
      assert g in multiset(l) - multiset(r);
    }
  }

  lemma SubListKeysUnique(r: HypothesisList, l: HypothesisList)
    requires KeysUnique(l)
    requires multiset(r) <= multiset(l)
    ensures KeysUnique(r)
  {
    KeysUniqueDistinct(l);
    KeysUniquePairs(l);
    KeysUniquePairs(r);
    SubMultisetDistinct(r, l);
    forall i, j | 0 <= i < j < |r| ensures r[i].ys != r[j].ys {
      assert r[i] in multiset(l) && r[j] in multiset(l);
      var a :| 0 <= a < |l| && l[a] == r[i];
      var b :| 0 <= b < |l| && l[b] == r[j];
      assert a != b;
    }
  }
}

=== FILE: packing.dfy ===
/** The schedule `pack_padded_sequence(..., enforce_sorted=False)` derives from
    the valid lengths: utterances sorted longest first, for every frame the
    number of utterances still running, and the permutation that undoes the sort. */
module Packing {
  import opened Wrappers
  import opened Sorting
  import opened Decoding

  ghost predicate ValidLengths(lengths: seq<int>) {
    |lengths| >= 1 && forall i :: 0 <= i < |lengths| ==> lengths[i] > 0
  }

  /** The decoders' input assertions: at least one utterance, every valid
      length positive. */
  function CheckLengths(lengths: seq<int>): (r: Option<DecodeError>)
    ensures r.None? <==> ValidLengths(lengths)
    ensures r == Some(EmptyBatch) <==> |lengths| == 0
  {
    if |lengths| == 0 then Some(EmptyBatch)
    else if exists i :: 0 <= i < |lengths| && lengths[i] <= 0 then Some(NonPositiveLength)
    else None
  }

  ghost predicate IsPermutation(p: seq<nat>, n: nat) {
    |p| == n && (forall i :: 0 <= i < n ==> p[i] < n) && Distinct(p)
  }

  ghost predicate Descending(s: seq<int>) {
    forall i, j :: 0 <= i < j < |s| ==> s[i] >= s[j]
  }

  /** `batch_sizes`, the sort order and its inverse. */
  datatype Packed = Packed(batchSizes: seq<nat>, sortedIndices: seq<nat>, unsortedIndices: seq<nat>)

  function LengthKey(lengths: seq<int>): nat -> real {
    (i: nat) => if i < |lengths| then lengths[i] as real else 0.0
  }

  /** How many leading entries exceed `t`; for a descending sequence, exactly
      the entries that exceed `t`. */
  function ActiveCount(s: seq<int>, t: nat): (c: nat)
    ensures c <= |s|
    ensures Descending(s) ==> forall i :: 0 <= i < |s| ==> (i < c <==> s[i] > t)
  {
    if |s| == 0 || s[0] <= t then 0
    else
      var c := ActiveCount(s[1..], t);
      assert forall i :: 1 <= i < |s| ==> s[1..][i - 1] == s[i];
      1 + c
  }

  /** Where `x` first occurs in `p`, or `|p|` when it does not. */
  function IndexOf(p: seq<nat>, x: nat): (k: nat)
    ensures k <= |p|
    ensures k < |p| ==> p[k] == x
    ensures x in p ==> k < |p|
  {
    if |p| == 0 then 0
    else if p[0] == x then 0
    else 1 + IndexOf(p[1..], x)
  }

  /** The utterance indices, longest first (`sorted_indices`). */
  function SortOrder(lengths: seq<int>): (sorted: seq<nat>)
    ensures IsPermutation(sorted, |lengths|)
    ensures forall j :: 0 <= j < |lengths| ==> j in sorted
    ensures forall i, j :: 0 <= i < j < |lengths| ==> lengths[sorted[i]] >= lengths[sorted[j]]
  {
    var n := |lengths|;
    var sorted := SortDesc(Range(n), LengthKey(lengths));
    SortDescSpec(Range(n), LengthKey(lengths));
    SortedIsPermutation(sorted, n);
    forall i, j | 0 <= i < j < n ensures lengths[sorted[i]] >= lengths[sorted[j]] {
      assert LengthKey(lengths)(sorted[i]) >= LengthKey(lengths)(sorted[j]);
    }
    sorted
  }

  /** `batch_sizes[t]`: how many sorted utterances are longer than `t`. */
  function BatchSizes(sortedLens: seq<int>, frames: nat): (bs: seq<nat>)
    requires Descending(sortedLens)
    ensures |bs| == frames
    ensures forall t :: 0 <= t < frames ==> bs[t] <= |sortedLens|
    ensures forall t, i :: 0 <= t < frames && 0 <= i < |sortedLens| ==> (i < bs[t] <==> sortedLens[i] > t)
  {
    seq(frames, t requires 0 <= t < frames => ActiveCount(sortedLens, t))
  }

  /** `unsorted_indices`: the inverse of a permutation. */
  function Invert(p: seq<nat>): (inv: seq<nat>)
    requires IsPermutation(p, |p|)
    requires forall j :: 0 <= j < |p| ==> j in p
    ensures |inv| == |p|
    ensures forall i :: 0 <= i < |p| ==> inv[i] < |p| && p[inv[i]] == i
    ensures forall k :: 0 <= k < |p| ==> inv[p[k]] == k
  {
    var inv := seq(|p|, j requires 0 <= j < |p| => IndexOf(p, j));
    forall k | 0 <= k < |p| ensures inv[p[k]] == k {
      var j := IndexOf(p, p[k]);
      assert p[j] == p[k];
    }
    inv
  }

  /** The packing schedule of a batch of valid lengths. */
  function Pack(lengths: seq<int>): (pk: Packed)
    requires ValidLengths(lengths)
    ensures IsPermutation(pk.sortedIndices, |lengths|)
    ensures forall i, j :: 0 <= i < j < |lengths| ==>
      lengths[pk.sortedIndices[i]] >= lengths[pk.sortedIndices[j]]
    ensures |pk.batchSizes| == lengths[pk.sortedIndices[0]]
    ensures forall i :: 0 <= i < |lengths| ==> lengths[i] <= |pk.batchSizes|
    ensures forall t :: 0 <= t < |pk.batchSizes| ==> pk.batchSizes[t] <= |lengths|
    ensures forall t, i :: 0 <= t < |pk.batchSizes| && 0 <= i < |lengths| ==>
      (i < pk.batchSizes[t] <==> lengths[pk.sortedIndices[i]] > t)
    ensures |pk.unsortedIndices| == |lengths|
    ensures forall i :: 0 <= i < |lengths| ==>
      pk.unsortedIndices[i] < |lengths| && pk.sortedIndices[pk.unsortedIndices[i]] == i
    ensures forall k :: 0 <= k < |lengths| ==> pk.unsortedIndices[pk.sortedIndices[k]] == k
  {
    var sorted := SortOrder(lengths);
    var sortedLens := LengthsInOrder(lengths, sorted);
    var unsorted := Invert(sorted);
    var bs := BatchSizes(sortedLens, sortedLens[0]);
    PackFacts(lengths, sorted, sortedLens, unsorted, bs);
    Packed(bs, sorted, unsorted)
  }

  /** The valid lengths listed in sorted order. */
  function LengthsInOrder(lengths: seq<int>, sorted: seq<nat>): (s: seq<int>)
    requires IsPermutation(sorted, |lengths|)
    requires forall i, j :: 0 <= i < j < |lengths| ==> lengths[sorted[i]] >= lengths[sorted[j]]
    ensures |s| == |lengths|
    ensures forall i :: 0 <= i < |s| ==> s[i] == lengths[sorted[i]]
    ensures Descending(s)
  {
    seq(|lengths|, i requires 0 <= i < |lengths| => lengths[sorted[i]])
  }

  lemma PackFacts(lengths: seq<int>, sorted: seq<nat>, sortedLens: seq<int>, unsorted: seq<nat>, bs: seq<nat>)
    requires ValidLengths(lengths)
    requires IsPermutation(sorted, |lengths|)
    requires |sortedLens| == |lengths|
    requires forall i :: 0 <= i < |lengths| ==> sortedLens[i] == lengths[sorted[i]]
    requires forall i, j :: 0 <= i < j < |lengths| ==> lengths[sorted[i]] >= lengths[sorted[j]]
    requires |unsorted| == |lengths|
    requires forall i :: 0 <= i < |lengths| ==> unsorted[i] < |lengths| && sorted[unsorted[i]] == i
    requires |bs| == sortedLens[0]
    requires forall t, i :: 0 <= t < |bs| && 0 <= i < |lengths| ==> (i < bs[t] <==> sortedLens[i] > t)
    ensures forall i :: 0 <= i < |lengths| ==> lengths[i] <= |bs|
    ensures forall t, i :: 0 <= t < |bs| && 0 <= i < |lengths| ==> (i < bs[t] <==> lengths[sorted[i]] > t)
  {
    forall i | 0 <= i < |lengths| ensures lengths[i] <= |bs| {
      if unsorted[i] > 0 {
        assert lengths[sorted[0]] >= lengths[sorted[unsorted[i]]];
      }
    }
  }

  /** The sorted index sequence is a permutation that reaches every index. */
  lemma SortedIsPermutation(sorted: seq<nat>, n: nat)
    requires multiset(sorted) == multiset(Range(n))
    ensures IsPermutation(sorted, n)
    ensures forall j :: 0 <= j < n ==> j in sorted
  {
    assert |sorted| == n by {
      assert |multiset(sorted)| == |multiset(Range(n))|;
    }
    forall i | 0 <= i < n ensures sorted[i] < n {
      assert sorted[i] in multiset(Range(n));
    }
    SubMultisetDistinct(sorted, Range(n));
    forall j | 0 <= j < n ensures j in sorted {
      assert Range(n)[j] == j;
      assert j in multiset(Range(n));
    }
  }

  /** The frame loop sees the whole batch first and never regains an utterance. */
  lemma BatchSizesShape(lengths: seq<int>)
    requires ValidLengths(lengths)
    ensures |Pack(lengths).batchSizes| >= 1
    ensures Pack(lengths).batchSizes[0] == |lengths|
    ensures forall t, u :: 0 <= t <= u < |Pack(lengths).batchSizes| ==>
      Pack(lengths).batchSizes[u] <= Pack(lengths).batchSizes[t]
    ensures forall t :: 0 <= t < |Pack(lengths).batchSizes| ==> Pack(lengths).batchSizes[t] >= 1
  {
    var pk := Pack(lengths);
    PackSchedule(lengths);
    ScheduleFull(lengths, pk.sortedIndices, pk.batchSizes);
    ScheduleShrinks(lengths, pk.sortedIndices, pk.batchSizes);
  }

  /** A schedule as long as its longest utterance starts with the whole batch
      and keeps at least one utterance running at every frame. */
  lemma ScheduleFull(lengths: seq<int>, sorted: seq<nat>, bs: seq<nat>)
    requires Schedule(lengths, sorted, bs)
    requires |sorted| >= 1 && |bs| == lengths[sorted[0]]
    ensures |bs| >= 1 && bs[0] == |sorted|
    ensures forall t :: 0 <= t < |bs| ==> bs[t] >= 1
  {
    var n := |sorted|;
    assert lengths[sorted[n - 1]] > 0;
    assert n - 1 < bs[0];
    forall t | 0 <= t < |bs| ensures bs[t] >= 1 {
      assert lengths[sorted[0]] > t;
    }
  }

  /** Utterances only ever retire: batch sizes never grow. */
  lemma ScheduleShrinks(lengths: seq<int>, sorted: seq<nat>, bs: seq<nat>)
    requires Schedule(lengths, sorted, bs)
    ensures forall t, u :: 0 <= t <= u < |bs| ==> bs[u] <= bs[t]
  {
    forall t, u | 0 <= t <= u < |bs| ensures bs[u] <= bs[t] {
      if bs[u] > 0 {
        var i := bs[u] - 1;
        assert lengths[sorted[i]] > u;
        assert i < bs[t];
      }
    }
  }

  /** What the frame loops rely on: `sorted` lists the utterances, position
      `i` runs at frame `t` exactly when it is inside `batchSizes[t]`, and no
      utterance outlives the schedule. */
  ghost predicate Schedule(lengths: seq<int>, sorted: seq<nat>, batchSizes: seq<nat>) {
    && |sorted| == |lengths|
    && (forall k :: 0 <= k < |sorted| ==> sorted[k] < |lengths|)
    && (forall t :: 0 <= t < |batchSizes| ==> batchSizes[t] <= |sorted|)
    && (forall t, i :: 0 <= t < |batchSizes| && 0 <= i < |sorted| ==>
         (i < batchSizes[t] <==> lengths[sorted[i]] > t))
    && (forall k :: 0 <= k < |sorted| ==> 0 < lengths[sorted[k]] <= |batchSizes|)
  }

  lemma PackSchedule(lengths: seq<int>)
    requires ValidLengths(lengths)
    ensures Schedule(lengths, Pack(lengths).sortedIndices, Pack(lengths).batchSizes)
  {
  }

  /** The final loop over `unsorted_indices`: entry `k` of the sorted results
      returns to the caller slot of utterance `sortedIndices[k]`. */
  function Unsort<T>(vals: seq<T>, pk: Packed): (r: seq<T>)
    requires |vals| == |pk.sortedIndices| == |pk.unsortedIndices|
    requires IsPermutation(pk.sortedIndices, |vals|)
    requires forall k :: 0 <= k < |vals| ==> pk.unsortedIndices[pk.sortedIndices[k]] == k
    requires forall i :: 0 <= i < |vals| ==> pk.unsortedIndices[i] < |vals|
    ensures |r| == |vals|
    ensures forall k :: 0 <= k < |vals| ==> r[pk.sortedIndices[k]] == vals[k]
  {
    seq(|vals|, i requires 0 <= i < |vals| => vals[pk.unsortedIndices[i]])
  }
}

=== FILE: ragged.dfy ===
/** Ragged bookkeeping: one flat sequence of all hypotheses plus an offsets
    table saying where each utterance's hypotheses start and end. */
module Ragged {

  /** All rows laid end to end. */
  function Flatten<T>(rows: seq<seq<T>>): seq<T>
  {
    if |rows| == 0 then [] else Flatten(rows[..|rows| - 1]) + rows[|rows| - 1]
  }

  /** `get_hyps_row_splits`: the exclusive prefix sum of the row lengths. */
  function RowSplits<T>(rows: seq<seq<T>>): (r: seq<nat>)
    ensures |r| == |rows| + 1
    ensures r[0] == 0
    ensures forall i {:trigger rows[i]} :: 0 <= i < |rows| ==> r[i + 1] == r[i] + |rows[i]|
    ensures r[|rows|] == |Flatten(rows)|
  {
    if |rows| == 0 then [0]
    else
      var p := RowSplits(rows[..|rows| - 1]);
      assert forall i :: 0 <= i < |rows| - 1 ==> rows[..|rows| - 1][i] == rows[i];
      p + [p[|p| - 1] + |rows[|rows| - 1]|]
  }

  /** Offsets tables of the shape `RowSplits` produces. */
  ghost predicate ValidSplits(splits: seq<nat>)
    decreases |splits|
  {
    && |splits| >= 1 && splits[0] == 0
    && (|splits| >= 2 ==>
          splits[|splits| - 2] <= splits[|splits| - 1] && ValidSplits(splits[..|splits| - 1]))
  }

  /** Offsets in a valid table never decrease. */
  lemma {:induction false} SplitsMonotone(splits: seq<nat>, i: nat, j: nat)
    requires ValidSplits(splits) && i <= j < |splits|
    ensures splits[i] <= splits[j]
    decreases |splits|
  {
    var n := |splits|;
    if j == n - 1 && i < j {
      SplitsMonotone(splits[..n - 1], i, n - 2);
    } else if j < n - 1 {
      SplitsMonotone(splits[..n - 1], i, j);
    }
  }

  /** Row splits start at zero and never decrease. */
  lemma {:induction false} RowSplitsValid<T>(rows: seq<seq<T>>)
    ensures ValidSplits(RowSplits(rows))
    decreases |rows|
  {
    if |rows| > 0 {
      var n := |rows|;
      var p := RowSplits(rows[..n - 1]);
      RowSplitsValid(rows[..n - 1]);
      var r := RowSplits(rows);
      assert r == p + [p[|p| - 1] + |rows[n - 1]|];
      assert r[..|r| - 1] == p;
    }
  }

  /** Every row occupies its own range of the flat sequence. */
  lemma RowSplitsBounded<T>(rows: seq<seq<T>>)
    ensures forall i :: 0 <= i < |rows| ==> RowSplits(rows)[i] + |rows[i]| <= |Flatten(rows)|
  {
    RowSplitsValid(rows);
    forall i {:trigger rows[i]} | 0 <= i < |rows|
      ensures RowSplits(rows)[i] + |rows[i]| <= |Flatten(rows)|
    {
      SplitsMonotone(RowSplits(rows), i + 1, |rows|);
    }
  }

  /** `row_splits_to_row_ids`: the row that owns each flat position. */
  function RowSplitsToRowIds(splits: seq<nat>): (r: seq<nat>)
    requires ValidSplits(splits)
    ensures |r| == splits[|splits| - 1]
    ensures forall j :: 0 <= j < |r| ==> r[j] + 1 < |splits| && splits[r[j]] <= j < splits[r[j] + 1]
  {
    if |splits| == 1 then []
    else
      var n := |splits|;
      var p := RowSplitsToRowIds(splits[..n - 1]);
      var r := p + seq(splits[n - 1] - splits[n - 2], _ => n - 2);
      assert forall j :: |p| <= j < |r| ==> r[j] == n - 2;
      r
  }

  /** A flat position lies in exactly one row's range. */
  lemma OwnerUnique(splits: seq<nat>, a: nat, b: nat, j: nat)
    requires ValidSplits(splits)
    requires a + 1 < |splits| && b + 1 < |splits|
    requires splits[a] <= j < splits[a + 1]
    requires splits[b] <= j < splits[b + 1]
    ensures a == b
  {
    if a < b {
      SplitsMonotone(splits, a + 1, b);
    } else if b < a {
      SplitsMonotone(splits, b + 1, a);
    }
  }

  /** Element `k` of row `i` sits at flat position `RowSplits(rows)[i] + k`. */
  lemma {:induction false} FlattenIndex<T>(rows: seq<seq<T>>, i: nat, k: nat)
    requires i < |rows| && k < |rows[i]|
    ensures RowSplits(rows)[i] + k < |Flatten(rows)|
    ensures Flatten(rows)[RowSplits(rows)[i] + k] == rows[i][k]
  {
    var n := |rows|;
    var front := rows[..n - 1];
    var r := RowSplits(rows);
    var p := RowSplits(front);
    var f := Flatten(front);
    assert r == p + [p[n - 1] + |rows[n - 1]|];
    assert Flatten(rows) == f + rows[n - 1];
    if i < n - 1 {
      assert front[i] == rows[i];
      FlattenIndex(front, i, k);
      assert r[i] == p[i];
      assert Flatten(rows)[p[i] + k] == f[p[i] + k];
    } else {
      assert r[i] == p[n - 1] == |f|;
      assert Flatten(rows)[|f| + k] == rows[n - 1][k];
    }
  }

  /** The row ids give row `i` as the owner of every flat position of row `i`. */
  lemma FlatOwner<T>(rows: seq<seq<T>>, i: nat, k: nat)
    requires i < |rows| && k < |rows[i]|
    ensures ValidSplits(RowSplits(rows))
    ensures RowSplits(rows)[i] + k < |RowSplitsToRowIds(RowSplits(rows))|
    ensures RowSplitsToRowIds(RowSplits(rows))[RowSplits(rows)[i] + k] == i
  {
    var splits := RowSplits(rows);
    RowSplitsValid(rows);
    var ids := RowSplitsToRowIds(splits);
    var j := splits[i] + k;
    FlattenIndex(rows, i, k);
    OwnerUnique(splits, ids[j], i, j);
  }

  /** How a flat sequence lays out its rows: row `i` occupies positions
      `splits[i]` onwards, each of which the row ids assign to row `i`. */
  ghost predicate LaidOut<T>(rows: seq<seq<T>>, splits: seq<nat>, flat: seq<T>, ids: seq<nat>)
  {
    && |splits| == |rows| + 1 && |ids| == |flat|
    && (forall i {:trigger rows[i]} :: 0 <= i < |rows| ==> splits[i] + |rows[i]| <= |flat|)
    && (forall i, k {:trigger rows[i][k]} :: 0 <= i < |rows| && 0 <= k < |rows[i]| ==>
          flat[splits[i] + k] == rows[i][k] && ids[splits[i] + k] == i)
    && (forall j :: 0 <= j < |ids| ==> ids[j] < |rows|)
  }

  /** `RowSplits`, `Flatten` and `RowSplitsToRowIds` agree on the layout. */
  lemma Layout<T>(rows: seq<seq<T>>)
    ensures ValidSplits(RowSplits(rows))
    ensures LaidOut(rows, RowSplits(rows), Flatten(rows), RowSplitsToRowIds(RowSplits(rows)))
  {
    RowSplitsValid(rows);
    RowSplitsBounded(rows);
    forall i, k | 0 <= i < |rows| && 0 <= k < |rows[i]|
      ensures && Flatten(rows)[RowSplits(rows)[i] + k] == rows[i][k]
              && RowSplitsToRowIds(RowSplits(rows))[RowSplits(rows)[i] + k] == i
    {
      FlattenIndex(rows, i, k);
      FlatOwner(rows, i, k);
    }
  }
}

=== FILE: sorting.dfy ===
/** A stable insertion sort in descending order of a real-valued key, and the
    top-k selection built on it.  Python's `sorted(..., reverse=True)` is stable;
    `torch.topk` and `torch.sort` leave the order of equal keys unspecified, so the
    contracts below never say how ties are ordered. */
module Sorting {

  /** Keys never increase from left to right. */
  ghost predicate NonIncreasing<T>(s: seq<T>, key: T -> real) {
    forall i, j :: 0 <= i < j < |s| ==> key(s[i]) >= key(s[j])
  }

  /** No value occurs twice. */
  ghost predicate Distinct<T>(s: seq<T>) {
    forall i, j :: 0 <= i < j < |s| ==> s[i] != s[j]
  }

  /** The indices 0 .. n-1 in order. */
  function Range(n: nat): (r: seq<nat>)
    ensures |r| == n
    ensures forall i :: 0 <= i < n ==> r[i] == i
  {
    seq(n, i => i)
  }

  function Min(a: nat, b: nat): nat {
    if a <= b then a else b
  }

  /** Inserts `x` in front of the first element whose key is not larger. */
  function Insert<T>(x: T, s: seq<T>, key: T -> real): (r: seq<T>)
    ensures |r| == |s| + 1
  {
    if |s| == 0 || key(x) >= key(s[0]) then
      [x] + s
    else
      [s[0]] + Insert(x, s[1..], key)
  }

  /** Inserting adds exactly `x`, and into a non-increasing sequence keeps it
      non-increasing. */
  lemma InsertSpec<T>(x: T, s: seq<T>, key: T -> real)
    ensures multiset(Insert(x, s, key)) == multiset(s) + multiset{x}
    ensures forall y :: y in Insert(x, s, key) ==> y == x || y in s
    ensures NonIncreasing(s, key) ==> NonIncreasing(Insert(x, s, key), key)
  {
    InsertPerm(x, s, key);
    InsertSorted(x, s, key);
  }

  lemma {:induction false} InsertPerm<T>(x: T, s: seq<T>, key: T -> real)
    ensures multiset(Insert(x, s, key)) == multiset(s) + multiset{x}
    ensures forall y :: y in Insert(x, s, key) ==> y == x || y in s
    decreases |s|
  {
    if |s| > 0 && key(x) < key(s[0]) {
      var rest := Insert(x, s[1..], key);
      InsertPerm(x, s[1..], key);
      assert s == [s[0]] + s[1..];
      assert Insert(x, s, key) == [s[0]] + rest;
    }
  }

  lemma {:induction false} InsertSorted<T>(x: T, s: seq<T>, key: T -> real)
    ensures NonIncreasing(s, key) ==> NonIncreasing(Insert(x, s, key), key)
    decreases |s|
  {
    var r := Insert(x, s, key);
    if |s| == 0 || key(x) >= key(s[0]) {
      assert r == [x] + s;
      if NonIncreasing(s, key) {
        forall i, j | 0 <= i < j < |r| ensures key(r[i]) >= key(r[j]) {
          if i == 0 {
            assert r[j] == s[j - 1];
            if j > 1 {
              assert key(s[0]) >= key(s[j - 1]);
            }
          } else {
            assert r[i] == s[i - 1] && r[j] == s[j - 1];
          }
        }
      }
    } else {
      var rest := Insert(x, s[1..], key);
      InsertPerm(x, s[1..], key);
      InsertSorted(x, s[1..], key);
      assert s == [s[0]] + s[1..];
      assert r == [s[0]] + rest;
      InsertHead(s[0], x, s[1..], rest, key);
    }
  }

  /** Prepending a head whose key dominates both `x` and `s` keeps order. */
  lemma InsertHead<T>(h: T, x: T, s: seq<T>, rest: seq<T>, key: T -> real)
    requires forall y :: y in rest ==> y == x || y in s
    requires key(h) >= key(x)
    requires NonIncreasing([h] + s, key) ==> NonIncreasing(rest, key)
    ensures NonIncreasing([h] + s, key) ==> NonIncreasing([h] + rest, key)
  {
    if NonIncreasing([h] + s, key) {
      assert NonIncreasing(s, key) by {
        forall i, j | 0 <= i < j < |s| ensures key(s[i]) >= key(s[j]) {
          assert ([h] + s)[i + 1] == s[i] && ([h] + s)[j + 1] == s[j];
        }
      }
      forall i, j | 0 <= i < j < |rest| + 1
        ensures key(([h] + rest)[i]) >= key(([h] + rest)[j])
      {
        if i == 0 {
          var y := rest[j - 1];
          assert y in rest;
          assert ([h] + rest)[0] == h && ([h] + rest)[j] == y;
          if y != x {
            var k :| 0 <= k < |s| && s[k] == y;
            assert ([h] + s)[k + 1] == y && ([h] + s)[0] == h;
          }
        } else {
          assert ([h] + rest)[i] == rest[i - 1] && ([h] + rest)[j] == rest[j - 1];
        }
      }
    }
  }

  /** Sorts by decreasing key; elements with equal keys keep their order. */
  function SortDesc<T>(s: seq<T>, key: T -> real): (r: seq<T>)
    ensures |r| == |s|
  {
    if |s| == 0 then []
    else
      Insert(s[0], SortDesc(s[1..], key), key)
  }

  /** The sort is a permutation in non-increasing key order. */
  lemma {:induction false} SortDescSpec<T>(s: seq<T>, key: T -> real)
    ensures multiset(SortDesc(s, key)) == multiset(s)
    ensures NonIncreasing(SortDesc(s, key), key)
    decreases |s|
  {
    if |s| > 0 {
      SortDescSpec(s[1..], key);
      InsertSpec(s[0], SortDesc(s[1..], key), key);
      assert s == [s[0]] + s[1..];
    }
  }

  /** The first `k` elements of the descending sort: the `k` largest keys. */
  function TopByKey<T>(s: seq<T>, k: nat, key: T -> real): (r: seq<T>)
    ensures |r| == Min(k, |s|)
  {
    SortDesc(s, key)[..Min(k, |s|)]
  }

  /** The selection is drawn from `s`, is in non-increasing key order, and no
      element it keeps has a smaller key than one it leaves out. */
  lemma TopByKeyBest<T>(s: seq<T>, k: nat, key: T -> real)
    ensures multiset(TopByKey(s, k, key)) <= multiset(s)
    ensures NonIncreasing(TopByKey(s, k, key), key)
    ensures var r := TopByKey(s, k, key);
      forall x, y :: x in r && y in multiset(s) - multiset(r) ==> key(x) >= key(y)
  {
    var sorted := SortDesc(s, key);
    SortDescSpec(s, key);
    var m := Min(k, |s|);
    TopSplit(sorted, m, key);
    assert sorted == sorted[..m] + sorted[m..];
  }

  /** In a non-increasing sequence every element of the prefix has a key at
      least that of every element of the suffix. */
  lemma TopSplit<T>(s: seq<T>, m: nat, key: T -> real)
    requires m <= |s|
    requires NonIncreasing(s, key)
    ensures multiset(s) - multiset(s[..m]) == multiset(s[m..])
    ensures forall x, y :: x in s[..m] && y in s[m..] ==> key(x) >= key(y)
  {
    assert s == s[..m] + s[m..];
    forall x, y | x in s[..m] && y in s[m..]
      ensures key(x) >= key(y)
    {
      var i :| 0 <= i < m && s[..m][i] == x;
      var j :| 0 <= j < |s| - m && s[m..][j] == y;
      assert s[i] == x && s[m + j] == y;
    }
  }

  /** A value occurring at two positions occurs at least twice. */
  lemma CountTwo<T>(s: seq<T>, i: nat, j: nat)
    requires i < j < |s| && s[i] == s[j]
    ensures multiset(s)[s[i]] >= 2
  {
    assert s == s[..j] + [s[j]] + s[j+1..];
    assert s[..j][i] == s[i];
    assert s[i] in multiset(s[..j]);
  }

  /** A sub-multiset of a sequence without repetitions has no repetitions. */
  lemma SubMultisetDistinct<T>(r: seq<T>, s: seq<T>)
    requires Distinct(s)
    requires multiset(r) <= multiset(s)
    ensures Distinct(r)
  {
    forall i, j | 0 <= i < j < |r|
      ensures r[i] != r[j]
    {
      if r[i] == r[j] {
        CountTwo(r, i, j);
        DistinctCountOne(s, r[i]);
      }
    }
  }

  /** Every value occurs at most once in a sequence without repetitions. */
  lemma {:induction false} DistinctCountOne<T>(s: seq<T>, x: T)
    requires Distinct(s)
    ensures multiset(s)[x] <= 1
  {
    if |s| > 0 {
      assert s == [s[0]] + s[1..];
      assert Distinct(s[1..]) by {
        forall i, j | 0 <= i < j < |s| - 1 ensures s[1..][i] != s[1..][j] {
          assert s[1..][i] == s[i + 1] && s[1..][j] == s[j + 1];
        }
      }
      DistinctCountOne(s[1..], x);
      assert forall j :: 0 <= j < |s| - 1 ==> s[1..][j] != s[0] by {
        forall j | 0 <= j < |s| - 1 ensures s[1..][j] != s[0] {
          assert s[1..][j] == s[j + 1];
        }
      }
      assert s[0] !in s[1..];
    }
  }
}

=== FILE: token_key.dfy ===
/** The string key of a hypothesis: its token IDs written in decimal and joined
    with underscores.  Parsing the key back recovers the token sequence, so two
    hypotheses share a key exactly when they share a token sequence; this is why
    the rest of the model keys hypothesis lists directly on the token sequence. */
module TokenKey {
  import opened Wrappers

  predicate IsDigit(c: char) {
    '0' <= c <= '9'
  }

  predicate AllDigits(s: string) {
    forall i :: 0 <= i < |s| ==> IsDigit(s[i])
  }

  function DigitChar(d: nat): (c: char)
    requires d < 10
    ensures IsDigit(c)
  {
    (48 + d) as char
  }

  function DigitValue(c: char): (d: nat)
    requires IsDigit(c)
    ensures d < 10
  {
    c as int - 48
  }

  /** Decimal digits of `n` without leading zeros. */
  function NatToDecimal(n: nat): (s: string)
    ensures |s| >= 1 && AllDigits(s)
  {
    if n < 10 then [DigitChar(n)]
    else NatToDecimal(n / 10) + [DigitChar(n % 10)]
  }

  /** Python's `str` of an integer: a minus sign for negatives, then digits. */
  function IntToDecimal(x: int): (s: string)
    ensures |s| >= 1 && '_' !in s
  {
    if x < 0 then "-" + NatToDecimal(-x) else NatToDecimal(x)
  }

  /** The hypothesis key: `"_".join(map(str, ys))`. */
  function Key(ys: seq<int>): string
  {
    if |ys| == 0 then ""
    else if |ys| == 1 then IntToDecimal(ys[0])
    else IntToDecimal(ys[0]) + "_" + Key(ys[1..])
  }

  function DecimalToNat(s: string): nat
    requires AllDigits(s)
  {
    if |s| == 0 then 0
    else DecimalToNat(s[..|s| - 1]) * 10 + DigitValue(s[|s| - 1])
  }

  /** Reads an optional minus sign followed by at least one digit. */
  function ParseInt(s: string): (r: Option<int>)
  {
    if |s| >= 2 && s[0] == '-' && AllDigits(s[1..]) then Some(-(DecimalToNat(s[1..]) as int))
    else if |s| >= 1 && AllDigits(s) then Some(DecimalToNat(s))
    else None
  }

  /** Python's `s.split("_")`: the pieces between underscores, at least one. */
  function Split(s: string): (r: seq<string>)
    ensures |r| >= 1
  {
    if |s| == 0 then [""]
    else if s[0] == '_' then [""] + Split(s[1..])
    else
      var tail := Split(s[1..]);
      [[s[0]] + tail[0]] + tail[1..]
  }

  function ParseAll(parts: seq<string>): Option<seq<int>>
  {
    if |parts| == 0 then Some([])
    else
      match (ParseInt(parts[0]), ParseAll(parts[1..]))
      case (Some(x), Some(xs)) => Some([x] + xs)
      case _ => None
  }

  /** Reads a key back into the token sequence it was made from. */
  function ParseKey(k: string): Option<seq<int>>
  {
    if k == "" then Some([]) else ParseAll(Split(k))
  }

  lemma {:induction false} DecimalRoundTrip(n: nat)
    ensures DecimalToNat(NatToDecimal(n)) == n
  {
    var s := NatToDecimal(n);
    if n >= 10 {
      DecimalRoundTrip(n / 10);
      assert s[..|s| - 1] == NatToDecimal(n / 10);
    } else {
      assert s[..|s| - 1] == [];
    }
  }

  lemma IntRoundTrip(x: int)
    ensures ParseInt(IntToDecimal(x)) == Some(x)
  {
    var s := IntToDecimal(x);
    if x < 0 {
      assert s[1..] == NatToDecimal(-x);
      DecimalRoundTrip(-x);
    } else {
      DecimalRoundTrip(x);
    }
  }

  lemma {:induction false} SplitPiece(a: string, b: string)
    requires '_' !in a
    ensures Split(a) == [a]
    ensures Split(a + "_" + b) == [a] + Split(b)
  {
    if |a| > 0 {
      SplitPiece(a[1..], b);
      assert (a + "_" + b)[1..] == a[1..] + "_" + b;
      assert [a[0]] + a[1..] == a;
    } else {
      assert a + "_" + b == "_" + b;
    }
  }

  /** Splitting a non-empty key yields the decimal form of each token. */
  lemma {:induction false} SplitKey(ys: seq<int>)
    requires |ys| >= 1
    ensures Split(Key(ys)) == seq(|ys|, i requires 0 <= i < |ys| => IntToDecimal(ys[i]))
  {
    if |ys| == 1 {
      SplitPiece(IntToDecimal(ys[0]), "");
    } else {
      SplitPiece(IntToDecimal(ys[0]), Key(ys[1..]));
      SplitKey(ys[1..]);
    }
  }

  lemma {:induction false} ParseDecimals(ys: seq<int>)
    ensures ParseAll(seq(|ys|, i requires 0 <= i < |ys| => IntToDecimal(ys[i]))) == Some(ys)
  {
    var parts := seq(|ys|, i requires 0 <= i < |ys| => IntToDecimal(ys[i]));
    if |ys| > 0 {
      IntRoundTrip(ys[0]);
      ParseDecimals(ys[1..]);
      assert parts[1..] == seq(|ys| - 1, i requires 0 <= i < |ys| - 1 => IntToDecimal(ys[1..][i]));
      assert [ys[0]] + ys[1..] == ys;
    }
  }

  /** Parsing a key gives back the token sequence. */
  lemma KeyRoundTrip(ys: seq<int>)
    ensures ParseKey(Key(ys)) == Some(ys)
  {
    if |ys| > 0 {
      assert |Key(ys)| > 0 by {
        assert |IntToDecimal(ys[0])| >= 1;
      }
      SplitKey(ys);
      ParseDecimals(ys);
    }
  }

  /** Equal keys mean equal token sequences, and conversely. */
  lemma KeyInjective(a: seq<int>, b: seq<int>)
    ensures Key(a) == Key(b) <==> a == b
  {
    if Key(a) == Key(b) {
      KeyRoundTrip(a);
      KeyRoundTrip(b);
    }
  }
}

=== FILE: wrappers.dfy ===
/** Small failure-carrying datatypes shared by the decoding model. */
module Wrappers {

  /** A value that may be missing (Python's "raises" or "returns nothing"). */
  datatype Option<+T> = None | Some(value: T)

  /** Either a computed value or the error that stopped the computation. */
  datatype Result<+T, +E> = Ok(value: T) | Err(error: E)
}
